=== FILE: README.md ===
# Video editor core: crop editing, segment clamping, export

A Dafny model of the editing-state logic of a PyQt/OpenCV video editor
(`main.py`). The model treats the GUI as a stream of events arriving at
pure functions, and it treats the OpenCV calls as opaque.

- **Crop editor** (`ClipWidget`), in `crop.dfy`:
  - the rectangle starts as the whole frame;
  - a press picks up the first corner within `corner_size` (40) pixels;
  - a drag clamps the pointer to the frame, moves the held corner and puts the rectangle back in order.
- **Segment picker** (`SegmentWidget`), in `segment.dfy`: the begin/end
  slider, click and text handlers, each of which clamps so that begin stays
  below end. `set_range` and `confirm_selection` are modelled too.
- **Player session** (`VideoPlayer`), in `player.dfy`:
  - `load_video`: the guard, the existence check, the case-insensitive extension check, and the resets;
  - the time slider: Qt bounds every `setValue`, `setRange` and `setMaximum` to the range and,
    when the value changes, runs `slider_value_changed` (seek, read, show) before returning;
  - `toggle_segment_mode`, `update_preview_frame`, `confirm_segment` and `cancel_segment`;
  - the playback tick `update_frame`, `time_slider_clicked` and `toggle_play`;
  - the crop and resize settings;
  - the whole session as a sequence of user events, which keeps its invariant;
  - `save_current` with its `is_processing` guard.
- **Export**, in `export.dfy` and `frames.dfy`:
  - dispatch on the format text;
  - zero-padded output names in `<stem>_frames`;
  - the per-frame transform: numpy crop, then resize;
  - the writer size of `save_video_segment`;
  - the two export loops, which stop at the first failed read, and end with a
    failure at the first frame whose crop leaves no pixels.
- **Support modules**:
  - `decimal.dfy`: Python's `str`, `int` and `{:06d}`;
  - `paths.dfy`: POSIX `basename`, `dirname`, `splitext`, `join` and ASCII `lower`;
  - `geometry.dfy`: sizes and rectangles;
  - `wrappers.dfy`: `Option`.

A video is a sequence of `Option<Frame>`, where `None` is a frame that
cannot be decoded. Reading stops at the end or at such a frame. `cv2.resize`
is a function-valued parameter `scale`, and `Frames.Resizes(scale)` says only
that, given a frame with pixels, it returns a well-formed frame of the requested
size; on a frame without pixels it raises, and the model says where. Whether the file
exists, whether `cv2.VideoCapture` opens and whether `cv2.VideoWriter` opens
are boolean or `Option` parameters.

Three behaviours of the code are worth knowing before reading the contracts:

- `confirm_segment` stores any pair as given, without validation
  (`Player.ConfirmSegment`); only the segment editor's handlers keep begin
  below end.
- Both export loops stop silently at the first failed read and report
  success for the frames before it.
- A crop rectangle reaching outside the frame is cut by numpy's slicing
  rules, not rejected (`Frames.Crop`).

## Model

| member | source | states |
|---|---|---|
| Geometry.FullFrame | main.py:316-317 | The initial crop `[0, 0, w, h]` has the frame's dimensions, lies in the frame, and contains every rectangle that lies in the frame. |
| Crop.SetFrame | main.py:308-319 | A missing frame is ignored; otherwise the rectangle becomes the whole frame. The held corner is untouched. |
| Crop.HitTest | main.py:381-389 | The corner returned is within `corner_size` on both axes. Every corner that is near enough ranks no earlier than it in the order TL, TR, BL, BR. No corner is returned only when none is near. |
| Crop.Press | main.py:358-389 | Without a frame nothing changes. A hit picks up the hit corner; a miss keeps the held corner. The rectangle is unchanged. |
| Crop.ClampCoord | main.py:413-414 | The result lies in `[0, limit]` and equals the input when the input is already in range. |
| Crop.Drag | main.py:413-435 | After any drag the rectangle is ordered, and a rectangle inside the frame stays inside it. |
| Crop.DragEdges | main.py:418-435 | The right and bottom edges take the clamped pointer only when the held corner owns them. The left and top edges are the owned coordinate, capped by the new opposite edge. |
| Crop.DragFollowsPointer | main.py:418-435 | While the pointer does not cross the opposite edges, the held corner lands on the clamped pointer and the opposite corner stays put. |
| Crop.DragCollapses | main.py:432-435 | Dragging a corner past the opposite edge collapses the width (or height) to zero instead of swapping the edges. |
| Crop.DragIdempotent | main.py:413-435 | Repeating the same move changes nothing further. |
| Crop.DragInPlace | main.py:413-435 | Dragging a corner onto its own position leaves an in-frame rectangle unchanged. |
| Crop.Move | main.py:391-437 | Moving keeps the rectangle inside the frame and does not change the held corner. Without a held corner or a frame nothing changes. |
| Crop.Release | main.py:439-440 | Releasing drops the held corner and keeps the rectangle. |
| Crop.ConfirmClip | main.py:442-445 | A rectangle is handed over exactly when a frame was set, and it lies inside that frame. |
| Crop.Apply | main.py:308-440 | Every editor event keeps the rectangle inside its frame. |
| Crop.EventsKeepRectInFrame | main.py:308-445 | After any sequence of events, the confirmed rectangle is ordered and lies in its frame. |
| Segment.SetRange | main.py:128-136 | The begin field reads 0 and the end field reads `total`. For `total >= 0` the sliders span `[0, total]` at its two ends. |
| Segment.SetRangeValid | main.py:128-136 | For a video of at least one frame, the reset widget is valid and selects `(0, total)`. |
| Segment.BelowEnd | main.py:143-147 | The begin slider value is at most the value and below end; it is either the value or `end - 1`. |
| Segment.AboveBegin | main.py:158-162 | The end slider value is at least the value and above begin; it is either the value or `begin + 1`. |
| Segment.BeginInputValue | main.py:204-212 | A typed begin lies in `[0, end)` when `end >= 1`. It is `end - 1` when too large and 0 when negative. A value already in range is kept. |
| Segment.EndInputValue | main.py:226-234 | A typed end lies in `(begin, maximum]` when `begin < maximum`. It is `begin + 1` when too small and the maximum when too large. A value already in range is kept. |
| Segment.BeginFromSlider | main.py:138-151 | Covers `begin_slider_changed` and `begin_slider_clicked` (main.py:168-182). The preview frame is below end and is what the begin field now reads. A value below end is kept, and the end side is untouched. An unreadable end field gives no preview. |
| Segment.EndFromSlider | main.py:153-166 | Covers `end_slider_changed` and `end_slider_clicked` (main.py:184-198). The preview frame is above begin and is what the end field now reads. A value above begin is kept. |
| Segment.BeginFromText | main.py:200-220 | The typed begin is clamped into `[0, end)` when `end >= 1`, written back and set on the slider. A value already valid is not rewritten. A text that does not parse resets the field to "0". |
| Segment.EndFromText | main.py:222-242 | The typed end is clamped into `(begin, maximum]` when `begin < maximum`. A value already valid is not rewritten. A text that does not parse resets the field to the maximum. |
| Segment.BeginTextKeepsValid | main.py:200-220 | Whatever is typed into the begin box, a valid selection `0 <= begin < end <= maximum` stays valid. |
| Segment.EndTextKeepsValid | main.py:222-242 | Whatever is typed into the end box, a valid selection stays valid. |
| Segment.SlidersKeepValid | main.py:138-198 | Moving or clicking either slider within its range keeps a valid selection valid. |
| Segment.ValidSelection | main.py:244-249 | A valid widget confirms a pair with `0 <= begin < end <= maximum`. |
| Decimal.ShowParses | main.py:133-143 | `int(str(n)) == n`, and `int(text or 0)` reads back what a handler wrote. |
| Decimal.Format06Parses | main.py:923 | Every `{n:06d}` stem parses back to `n`, negative numbers included. |
| Decimal.Format06SixDigits | main.py:923 | For `0 <= n < 10^6` the stem is exactly six decimal digits denoting `n`. |
| Decimal.Format06Injective | main.py:952 | Distinct frame numbers give distinct stems. |
| Paths.VideoFileIffSuffix | main.py:1111 | A path is accepted exactly when its last four characters, lower-cased, are `.mp4`, `.avi` or `.mov`. |
| Paths.AcceptsEveryCasing | main.py:1111 | Every upper/lower-case spelling of an accepted extension is accepted. |
| Paths.Splitext | main.py:917-918 | The stem and the extension concatenate back to the path, and the extension is empty or a dot-led part without separators. |
| Paths.OutputPathSplits | main.py:917-923 | An output path is `<frames dir>/<name>`, and `basename`/`dirname` give back the name and the frames directory. |
| Paths.FramesDirEndsWithSuffix | main.py:917-918 | The output directory's name ends in `<stem>_frames`. |
| Paths.FramesDirBesideInput | main.py:917-918 | The output directory sits directly in the input's directory. |
| Export.PlanExport | main.py:921-966 | `.jpg`/`.png` selects a single image, and `*.jpg`/`*.png` selects a sequence whose extension drops the `*`. Anything else selects a video with the format as its extension; each iff holds in both directions. |
| Export.FrameFileNameShape | main.py:923 | An image name is six digits spelling the frame number, followed by the extension. |
| Export.FrameFileNameParses | main.py:952 | Stripping the extension from any image name and parsing gives back the frame number. |
| Export.FrameFileNamesDistinct | main.py:952 | Two frames never get the same file name, so no sequence file overwrites another. |
| Export.VideoFileNameShape | main.py:966 | A video name is `<begin:06d>-<end:06d><format>`, and each part reads back as its number. |
| Export.OutputLandsInFramesDir | main.py:917-966 | Each image lands directly in `<stem>_frames`, under exactly its own name. |
| Export.WrittenCount | main.py:932-937 | Exactly `end - begin` frames are written when that many reads succeed. Otherwise as many as succeeded are written, and none when `end <= begin`. |
| Export.ExportSequence | main.py:932-956 | The sequence export writes one file per frame read before the end or the first failed read. File `k` is named `{begin + k:06d}<ext>` and holds stream frame `k` after crop and resize. The first frame whose crop leaves no pixels ends the export with a failure, the files before it kept. |
| Export.ExportVideo | main.py:978-1033 | A writer that fails to open gives no video. Otherwise the video is opened at the writer size as written (resize, else crop, else source) and holds exactly the transformed frames read before the end or the first failed read, in order. A resize that raises on an empty crop ends it incomplete, holding the frames before it. |
| Export.VideoFramesFitWriter | main.py:981-1023 | Every frame handed to the writer has the size crop and resize give it. That size equals the size the writer was opened with whenever there is no crop, a resize is set, or the crop lies inside the frame. |
| Frames.Crop | main.py:942-944 | The crop yields a well-formed frame no larger than the source. For a rectangle inside the frame it has the rectangle's size and its pixels are the source pixels at the offset. |
| Frames.CropWholeFrame | main.py:942-944 | Cropping to the whole frame returns the frame itself. |
| Frames.CropIdempotent | main.py:942-944 | Re-cropping a cropped frame to its own bounds changes nothing. |
| Frames.Cropped | main.py:942-944 | Without a crop the frame is unchanged; an in-frame crop has the rectangle's size. |
| Frames.Transform | main.py:941-949 | Defined where `cv2.resize` does not raise, that is unless a resize is set and the crop leaves no pixels. There, a set resize gives the target size; otherwise an in-frame crop gives the crop size; with neither, the frame is returned unchanged. The result has no pixels exactly when the crop has none. |
| Frames.CollapsedCropRaises | main.py:946-949 | A crop that a drag collapsed to zero width or height makes a set resize raise. |
| Frames.WriterSizeMatches | main.py:981-992 | With the crop inside the frame, the writer size as written, with precedence resize > crop > source, equals every transformed frame's size. |
| Frames.WriterSizeMismatch | main.py:981-992 | As written, a crop twice the size of a frame opens the writer at the crop's size, while the frames keep the frame's own size. The two sizes differ for every frame with pixels. |
| Frames.FrameSizeMatches | main.py:1015-1023 | The corrected writer size equals every transformed frame's size, whatever the crop. |
| Player.Seek | main.py:932 | A seek keeps the video and moves to the requested index. |
| Player.StreamFrom | main.py:935-939 | The frames read from index `i` are exactly the decodable frames from `i` up to the first undecodable one or the end. |
| Player.Bound | main.py:1181 | The value `setValue` stores lies in the slider's range, equals the requested value when that is in range, and is the nearer end otherwise. |
| Player.SliderValueChanged | main.py:883-890 | With a capture, a frame at the requested index that decodes becomes the current frame, numbered with the requested value, and is displayed; the position is one past it. A frame that does not decode leaves only the seek. Without a capture nothing changes. Nothing but the position and the current and displayed frames changes. |
| Player.SetSliderValue | main.py:1181 | The slider holds the bounded value. If that is the value it already held, nothing else happens; otherwise the change handler has shown the frame at the new value. |
| Player.SetSliderRange | main.py:864 | The slider spans `[lo, max(lo, hi)]` and its old value is bounded into it; if that moved the value, the change handler has shown the frame at the new value. |
| Player.SetSliderMaximum | main.py:1127 | The maximum becomes `m`, the minimum follows it down if needed, and the old value is bounded into the range, through the change handler when it moves. |
| Player.TimeSliderClick | main.py:892-901 | The slider moves to the clicked value, bounded. Whatever the bound did, a frame at the clicked value that decodes ends up current, numbered with the clicked value, and displayed. |
| Player.StartVideo | main.py:1116-1162 | Once the capture opens, it starts at frame 0 and the input file and frame count are recorded. The slider's maximum becomes the last frame index; if that moves the slider, the frame at its new value becomes current, otherwise the capture stays at frame 0 and the current frame is kept. The segment and the segment widget become `(0, frame count)`, the playing flag is set, and crop and resize are kept. |
| Player.LoadVideo | main.py:1102-1163 | A busy session, a missing file or an unsupported extension changes nothing. A capture that does not open is dropped with an error. A capture that opens has everything `StartVideo` states applied. When its reported frame rate is 0 or NaN, computing the timer interval raises and the capture is dropped with an error. Even then, the file, frame count, slider range, segment reset and playing flag stay. A frame the slider read on the way also stays; in the program that read itself raises in a slot and aborts (see "Left out"). |
| Player.EnterSegmentMode | main.py:844-851 | With a capture, the segment editor selects `(0, total_frames)` and playback pauses; nothing else changes. Without one nothing changes. |
| Player.PreviewFrame | main.py:853-858 | A preview frame that decodes is displayed, one that does not is not; the current frame and its number are untouched. |
| Player.ConfirmSegment | main.py:860-867 | Both values are stored as given, with no check. The slider spans `[begin, max(begin, end)]` at `begin`. If the slider was elsewhere and frame `begin` decodes, it becomes current with number `begin`; if it was already at `begin`, the current frame is untouched. With a capture the player then seeks to `begin` and plays. |
| Player.NarrowSlider | main.py:864-865 | Narrowing the slider to `[begin, end]` and setting it to `begin` leaves it at `begin`. It shows frame `begin` through the change handler unless the slider was already there, and then nothing else changes. |
| Player.ConfirmSelection | main.py:244-249 | A valid widget confirms a segment with `0 <= begin < end <= maximum`; an unreadable field changes nothing. |
| Player.CancelSegment | main.py:869-874 | The segment becomes `(0, total_frames)` and the slider spans `[0, total_frames]` with its value in range. Only the playback may change besides. When the slider already shows a current frame number in that range, nothing but the segment and the slider range changes. |
| Player.TogglePlay | main.py:1170-1174 | The playing flag flips, and nothing else changes. |
| Player.TogglePlayTwice | main.py:1170-1174 | Toggling twice restores the session. |
| Player.UpdateFrame | main.py:1176-1192 | Without a capture nothing changes. A tick never alters the segment, the settings or the slider range, keeps the slider value in range, and never starts playback. |
| Player.StopAtEnd | main.py:1184-1188 | Playback stops exactly when the current frame number has reached the segment end; the segment, settings, video and slider range are untouched, and the slider value stays in range. |
| Player.TickRewindsOnFailedRead | main.py:1191-1192 | A failed read seeks to the segment start and changes nothing else. |
| Player.TickReadsTwoFrames | main.py:1177-1181 | Inside the slider's range a tick reads twice: frame `p` is displayed, frame `p + 1` becomes the current frame with number `p + 1`, and the next read starts at `p + 2`. |
| Player.PauseRewindsToBegin | main.py:1184-1188 | A tick that pauses leaves the slider value and the current frame number at the segment start, and the position at the start or one past it, when the start lies in the slider's range. |
| Player.NoPauseBelowSliderMaximum | main.py:1176-1184 | While the slider's maximum is below the segment end, as after loading a whole video, a tick whose slider read succeeds never pauses. |
| Player.Tick | main.py:1176-1192 | Any number of ticks keeps the segment and the video. |
| Player.PlaybackLeavesSegment | main.py:1176-1192 | With five decodable frames and segment `(0, 4)`, two ticks reach position 4, and the third displays frame 4, outside the segment, pauses, and leaves the position at 1. |
| Player.UpdateFrameQuiet | main.py:1176-1192 | With one read per tick, a tick advances one frame and stays below the segment end, or reaches the end, pauses and rewinds to the start, or, on a failed read, rewinds without pausing. |
| Player.PlaybackStaysInSegment | main.py:1176-1192 | With one read per tick, starting inside a segment `0 <= begin < end`, any number of ticks keeps the position in `[begin, end)`. |
| Player.ConfirmClip | main.py:1224-1228 | The crop becomes the given rectangle and playback resumes; nothing else changes. |
| Player.ConfirmResize | main.py:1254-1259 | The resize target becomes the spin boxes' values and playback resumes; nothing else changes. |
| Player.PlaybackKeepsValid | main.py:883-890 | A slider read keeps the session valid: the frame it makes current comes from the capture. |
| Player.Apply | main.py:844-901 | Every user action keeps the session valid: the slider value in range, the current frame well formed, the capture and resize target as the environment delivers them. |
| Player.ApplyAll | main.py:844-1259 | Any sequence of user actions keeps a valid session valid. |
| Player.ReachableSessionsValid | main.py:624-901 | From start-up, whatever the user does, the time slider's value lies in its range and the current frame is well formed. |
| Player.StreamWellFormed | main.py:935-939 | Every frame read from a valid capture is well formed and has the capture's reported size. |
| Player.SaveSequence | main.py:930-963 | The sequence branch writes exactly the files of the sequence export. It reports success unless a frame's crop leaves no pixels, which gives `SaveFailed` with the files before it kept. The capture is left after the last frame read, and the guard is clear again. |
| Player.SaveVideo | main.py:964-1033 | The video branch writes one video, `<begin:06d>-<end:06d><ext>`, opened at the writer size as written, each frame of the size crop and resize give it. A resize that raises gives `SaveFailed` with the partial video. A writer that fails to open gives `SaveFailed` and no output. |
| Player.SaveCurrent | main.py:903-976 | A session without a video or current frame is refused, and so is a save while another runs; nothing is written. Otherwise the format picks exactly one branch. `.jpg`/`.png` writes `current_frame` untransformed under `current_frame_number`; after a tick that is the frame the slider's handler read, not the displayed one (`Player.TickReadsTwoFrames`). The guard is clear after every return. |
| Crop.FreshEditorConfirmsRectInFrame | main.py:256-445 | A fresh crop editor, whatever the user does, confirms only an ordered rectangle lying inside the frame it was drawn on. |

## Left out

- The Qt widgets, layouts, style sheets, dialogs, drag-and-drop and the
  `QTimer` loop: these are UI plumbing. Each handler is a function applied
  to one event; a timer tick arrives as an event while playing.
- `slider_pressed` and `slider_released` stop and restart the timer, which
  is not modelled; neither touches the session.
- Opening and closing the crop and resize dialogs, `cancel_clip` and the
  speed dialog: they pause or resume playback and touch nothing else the
  model holds.
- Nested signal delivery guarded by `is_updating` is a no-op, so the model
  leaves it out.
- The follow-up `valueChanged` that `QSlider.mousePressEvent` sends after a
  click is left out, as is the slider's own dragging.
- Floating-point behaviour is left out: the speed sliders, `fps`, the timer
  interval, the time label, the progress percentage and the slider-click
  position mapping.
- The widget-to-image coordinate mapping in the crop editor is left out:
  the pointer arrives already in image coordinates.
- The drawing in `ClipWidget.update_display` is left out.
- `VideoPlayer.update_display` is modelled only as recording the frame it is
  handed (`displayed`). Its crop, resize, colour conversion and scaling are
  left out; with a crop that leaves no pixels they raise inside a Qt slot,
  which the model does not follow.
- The `sys.platform` codec choice and the fps given to the writer are left
  out: both depend on the environment.
- The unused `ResizeWidget.show_resize_dialog` is dead code and is left out.
- `build.py` is not part of this model.
- `cv2.imencode`, the file writes, `os.makedirs`, `os.path.abspath`,
  `cap.release` and `out.release` are foreign calls and I/O. The model
  assumes the writes succeed; only the writer's failure to open and the
  raise on a crop without pixels are modelled.
- `Export.ExportVideo`: the writer is taken to record every frame handed to
  it. OpenCV's writer silently drops a frame whose size differs from the
  size it was opened with; `Export.VideoFramesFitWriter` says when that
  cannot happen, and the Findings row shows when it can.
- Saving is a method, not one of the session's events, so
  `Player.ReachableSessionsValid` covers sessions between saves;
  `Player.SaveCurrent` keeps the session valid on its own.
- `Decimal.ParseInt`: it accepts an optional sign followed by ASCII digits
  only. Python's `int()` also takes surrounding whitespace, underscores
  and non-ASCII digits.
- `Paths.Lower`: it lower-cases ASCII letters only, not the full Unicode
  case mapping.
- `Paths.Basename`, `Paths.Dirname`, `Paths.Splitext` and `Paths.Join`
  follow POSIX path rules only. On Windows, `os.path` also separates at
  `\` and keeps drive letters, which the model does not.
- `Player.Seek`: a negative frame index is taken to seek to frame 0.
- `Player.Read`: a failed read is taken not to advance the position. OpenCV
  documents neither case.
- `Player.LoadVideo`: a failed open leaves the playing flag and the
  controls' enabled state as they were; the widget enabling, the speed
  reset and `last_directory` are left out. The frame rate appears only as
  `fpsUsable`, which says whether `int(1000 / fps)` computes. A negative
  rate counts as usable: Qt refuses a negative interval without raising.
  After an unusable rate the playing flag stays set and the `QTimer` keeps
  running, and neither is modelled. In the program, the next timer tick
  then reads from a missing capture, as the next line describes.
- `Segment.BeginFromSlider`, `Segment.EndFromSlider`, `Player.ConfirmSelection`,
  `Player.ConfirmSegment`, `Player.TimeSliderClick`, `Player.UpdateFrame`,
  `Player.StartVideo`, `Player.LoadVideo`: where the program raises inside a
  Qt slot, the model stops that slot and keeps whatever it wrote before the
  raise. A slot that a setter called synchronously returns to its caller,
  which goes on. This covers three cases:
  - `int()` of a field's text that is not a number (main.py:143, 158, 174,
    190, 247-248). A field commits only on `editingFinished`, so such text
    can still sit in it.
  - `self.cap` being `None` (main.py:866, 896, 1177). For example, a timer
    tick can arrive after a load whose frame rate was unusable.
  - The time label's division by `self.fps` in `update_display`
    (main.py:1060-1062). Loading stores a rate of 0 or NaN (main.py:1125)
    before `setMaximum` (main.py:1127). If that moves the slider onto a frame
    that decodes, `slider_value_changed` makes the frame current, shows it,
    and then raises while writing the time label. The model keeps those
    writes and lets `load_video` go on to its own raise in `play_video`.

  PyQt5 5.5 and later calls `qFatal` on an exception that escapes a slot,
  unless the application has installed its own `sys.excepthook`. `main.py`
  installs none, so the real program aborts in each of these cases. These
  members therefore describe a session the real program does not go on with.
- `Player.SaveCurrent`: the `.jpg`/`.png` branch assumes the current frame
  encodes; a decoded frame always has pixels. Failures of the file writes
  themselves are not modelled.
- `Player.ConfirmResize`: it requires the spin boxes' range `[1, 9999]`,
  which the resize dialog guarantees.
- `Player.Possible`: a capture that opens is taken to report the size of
  its frames, and every decoded frame to be well formed.
- `Crop.Apply`: it ignores a frame of negative size, which decoding never
  produces.

## Findings

| source | as written | input that shows it | evidently intended | confidence | as-written member | corrected member |
|---|---|---|---|---|---|---|
| main.py:981-992 | The writer size takes the crop's `(x2 - x1, y2 - y1)` unchecked. `load_video` does not clear the crop, so a crop drawn on an earlier, larger video is kept. | Confirm a crop of 1280x960 on a 1280x960 video. Load a 640x480 video, then export it to `.mp4` without resize. The writer opens at 1280x960, but numpy slicing yields 640x480 frames. | The writer is opened at the size the transformed frames have (the crop cut to the frame), or the crop is cleared on load. | not executed | Frames.WriterSizeMismatch | Frames.FrameSize |
| main.py:1176-1192 | `update_frame` moves the time slider with `setValue` while its `valueChanged` signal is connected to `slider_value_changed` (main.py:712, 883-890). Each tick therefore seeks and reads a second frame, and the rewind at the end reads once more. | Five decodable frames, segment `(0, 4)` confirmed. Two ticks leave the position at 4; the third displays frame 4, outside the segment, pauses, and leaves the capture at frame 1 instead of the segment start. | One read per tick, the slider moved with its signals blocked: every frame of the segment shown once and the capture rewound to the segment start. | not executed | Player.PlaybackLeavesSegment | Player.UpdateFrameQuiet |

=== FILE: crop.dfy ===
/** The crop editor (`ClipWidget` in main.py): the rectangle starts as the
    whole frame, a press near one of its corners picks that corner up, and
    moving the pointer drags the corner, clamped to the frame, after which
    the rectangle is put back in order. Pointer positions are already in
    image coordinates; the widget-to-image mapping is not modelled. */
module Crop {
  import opened Wrappers
  import opened Geometry

  datatype Corner = TopLeft | TopRight | BottomLeft | BottomRight

  /** How far, in image pixels along each axis, a press may be from a corner
      and still pick it up. */
  const CornerSize: int := 40

  /** The order in which corners are tried: top-left, top-right,
      bottom-left, bottom-right. */
  function Rank(c: Corner): nat {
    match c
    case TopLeft => 0
    case TopRight => 1
    case BottomLeft => 2
    case BottomRight => 3
  }

  predicate OwnsLeft(c: Corner) { c == TopLeft || c == BottomLeft }
  predicate OwnsTop(c: Corner) { c == TopLeft || c == TopRight }

  function CornerX(r: Rect, c: Corner): int { if OwnsLeft(c) then r.x1 else r.x2 }
  function CornerY(r: Rect, c: Corner): int { if OwnsTop(c) then r.y1 else r.y2 }

  function Abs(v: int): nat { if v < 0 then -v else v }

  predicate Near(r: Rect, c: Corner, x: int, y: int) {
    Abs(x - CornerX(r, c)) <= CornerSize && Abs(y - CornerY(r, c)) <= CornerSize
  }

  /** The corner a press at `(x, y)` picks up: the first, in `Rank` order,
      within `CornerSize` of the press on both axes, or none. */
  function HitTest(r: Rect, x: int, y: int): (hit: Option<Corner>)
    ensures hit.Some? ==> Near(r, hit.value, x, y)
    ensures forall c :: Near(r, c, x, y) ==> hit.Some? && Rank(hit.value) <= Rank(c)
  {
    if Near(r, TopLeft, x, y) then Some(TopLeft)
    else if Near(r, TopRight, x, y) then Some(TopRight)
    else if Near(r, BottomLeft, x, y) then Some(BottomLeft)
    else if Near(r, BottomRight, x, y) then Some(BottomRight)
    else None
  }

  /** `max(0, min(v, limit))`. */
  function ClampCoord(v: int, limit: int): (r: int)
    requires limit >= 0
    ensures 0 <= r <= limit
    ensures 0 <= v <= limit ==> r == v
  {
    Max(0, Min(v, limit))
  }

  /** Sets the two coordinates the corner owns. */
  function MoveCorner(r: Rect, c: Corner, x: int, y: int): Rect {
    match c
    case TopLeft => r.(x1 := x, y1 := y)
    case TopRight => r.(x2 := x, y1 := y)
    case BottomLeft => r.(x1 := x, y2 := y)
    case BottomRight => r.(x2 := x, y2 := y)
  }

  /** The reordering after a move. Each line reads the value the previous
      lines left, so `x2` and `y2` come out unchanged and a corner dragged
      past the opposite edge collapses the rectangle instead of swapping it. */
  function Normalize(r: Rect): (n: Rect)
    ensures n.x1 <= n.x2 && n.y1 <= n.y2
  {
    var x1 := Min(r.x1, r.x2);
    var y1 := Min(r.y1, r.y2);
    Rect(x1, y1, Max(x1, r.x2), Max(y1, r.y2))
  }

  /** One `mouseMoveEvent` while `corner` is held, on a `size` frame. */
  function Drag(r: Rect, corner: Corner, x: int, y: int, size: Size): (d: Rect)
    requires size.width >= 0 && size.height >= 0
    ensures d.x1 <= d.x2 && d.y1 <= d.y2
    ensures Within(r, size) ==> Within(d, size)
  {
    Normalize(MoveCorner(r, corner, ClampCoord(x, size.width), ClampCoord(y, size.height)))
  }

  // ---------------------------------------------------------------------
  // Drag properties

  /** The right and bottom edges only change when the held corner owns them;
      the left and top edges only change when the held corner owns them or
      the pointer has crossed them. */
  lemma DragEdges(r: Rect, c: Corner, x: int, y: int, size: Size)
    requires size.width >= 0 && size.height >= 0
    ensures var d := Drag(r, c, x, y, size);
      var cx := ClampCoord(x, size.width);
      var cy := ClampCoord(y, size.height);
      && d.x2 == (if OwnsLeft(c) then r.x2 else cx)
      && d.y2 == (if OwnsTop(c) then r.y2 else cy)
      && d.x1 == Min(if OwnsLeft(c) then cx else r.x1, d.x2)
      && d.y1 == Min(if OwnsTop(c) then cy else r.y1, d.y2)
  {
  }

  /** While the pointer stays on its own side of the opposite edges, the held
      corner lands on the clamped pointer and the opposite corner stays put. */
  lemma DragFollowsPointer(r: Rect, c: Corner, x: int, y: int, size: Size)
    requires size.width >= 0 && size.height >= 0
    requires r.x1 <= r.x2 && r.y1 <= r.y2
    requires var cx := ClampCoord(x, size.width);
      if OwnsLeft(c) then cx <= r.x2 else r.x1 <= cx
    requires var cy := ClampCoord(y, size.height);
      if OwnsTop(c) then cy <= r.y2 else r.y1 <= cy
    ensures var d := Drag(r, c, x, y, size);
      && CornerX(d, c) == ClampCoord(x, size.width)
      && CornerY(d, c) == ClampCoord(y, size.height)
      && CornerX(d, Opposite(c)) == CornerX(r, Opposite(c))
      && CornerY(d, Opposite(c)) == CornerY(r, Opposite(c))
  {
    DragEdges(r, c, x, y, size);
  }

  function Opposite(c: Corner): (o: Corner)
    ensures OwnsLeft(o) != OwnsLeft(c) && OwnsTop(o) != OwnsTop(c)
  {
    match c
    case TopLeft => BottomRight
    case TopRight => BottomLeft
    case BottomLeft => TopRight
    case BottomRight => TopLeft
  }

  /** Dragging a left corner right of the right edge leaves zero width at the
      right edge; dragging a right corner left of the left edge leaves zero
      width at the pointer. Likewise vertically. */
  lemma DragCollapses(r: Rect, c: Corner, x: int, y: int, size: Size)
    requires size.width >= 0 && size.height >= 0
    ensures var d := Drag(r, c, x, y, size);
      var cx := ClampCoord(x, size.width);
      var cy := ClampCoord(y, size.height);
      && (OwnsLeft(c) && cx > r.x2 ==> d.x1 == d.x2 == r.x2)
      && (!OwnsLeft(c) && cx < r.x1 ==> d.x1 == d.x2 == cx)
      && (OwnsTop(c) && cy > r.y2 ==> d.y1 == d.y2 == r.y2)
      && (!OwnsTop(c) && cy < r.y1 ==> d.y1 == d.y2 == cy)
  {
    DragEdges(r, c, x, y, size);
  }

  /** Repeating a move to the same point changes nothing further. */
  lemma {:induction false} DragIdempotent(r: Rect, c: Corner, x: int, y: int, size: Size)
    requires size.width >= 0 && size.height >= 0
    ensures Drag(Drag(r, c, x, y, size), c, x, y, size) == Drag(r, c, x, y, size)
  {
    DragEdges(r, c, x, y, size);
    DragEdges(Drag(r, c, x, y, size), c, x, y, size);
  }

  /** Dragging a corner onto itself is no change, for a rectangle in the frame. */
  lemma DragInPlace(r: Rect, c: Corner, size: Size)
    requires Within(r, size)
    ensures Drag(r, c, CornerX(r, c), CornerY(r, c), size) == r
  {
    DragEdges(r, c, CornerX(r, c), CornerY(r, c), size);
  }

  // ---------------------------------------------------------------------
  // The editor's state and events

  /** The frame being cropped and the rectangle on it, present once a frame
      has been set. */
  datatype Editing = Editing(size: Size, rect: Rect)

  /** `original_frame`/`crop_rect` (together in `editing`) and `dragging_corner`. */
  datatype ClipWidget = ClipWidget(editing: Option<Editing>, dragging: Option<Corner>)

  /** The state `__init__` leaves. */
  function NewClipWidget(): ClipWidget {
    ClipWidget(None, None)
  }

  /** Every rectangle on display lies inside its frame. */
  predicate Valid(w: ClipWidget) {
    w.editing.Some? ==>
      w.editing.value.size.width >= 0 && w.editing.value.size.height >= 0
      && Within(w.editing.value.rect, w.editing.value.size)
  }

  /** `set_frame`: a missing frame is ignored; otherwise the rectangle starts
      as the whole frame. The held corner is not reset. */
  function SetFrame(w: ClipWidget, frame: Option<Size>): (w': ClipWidget)
    ensures frame.None? ==> w' == w
    ensures frame.Some? ==> w'.editing == Some(Editing(frame.value, FullFrame(frame.value)))
    ensures w'.dragging == w.dragging
  {
    if frame.None? then w
    else w.(editing := Some(Editing(frame.value, FullFrame(frame.value))))
  }

  /** `mousePressEvent` at image point `(x, y)`: picks up the hit corner.
      A press that hits nothing leaves the held corner as it was (it is
      cleared by the release that ended the previous drag). */
  function Press(w: ClipWidget, x: int, y: int): (w': ClipWidget)
    ensures w'.editing == w.editing
    ensures w.editing.None? ==> w' == w
    ensures w.editing.Some? ==>
      w'.dragging == (if HitTest(w.editing.value.rect, x, y).Some?
                      then HitTest(w.editing.value.rect, x, y) else w.dragging)
  {
    match w.editing
    case None => w
    case Some(e) =>
      var hit := HitTest(e.rect, x, y);
      if hit.Some? then w.(dragging := hit) else w
  }

  /** `mouseMoveEvent` at image point `(x, y)`: drags the held corner. */
  function Move(w: ClipWidget, x: int, y: int): (w': ClipWidget)
    requires Valid(w)
    ensures Valid(w')
    ensures w'.dragging == w.dragging
    ensures w.dragging.None? || w.editing.None? ==> w' == w
  {
    if w.dragging.None? || w.editing.None? then w
    else
      var e := w.editing.value;
      w.(editing := Some(e.(rect := Drag(e.rect, w.dragging.value, x, y, e.size))))
  }

  /** `mouseReleaseEvent`. */
  function Release(w: ClipWidget): (w': ClipWidget)
    ensures w'.dragging.None? && w'.editing == w.editing
  {
    w.(dragging := None)
  }

  /** `confirm_clip`: hands the rectangle to the player, if there is one. */
  function ConfirmClip(w: ClipWidget): (r: Option<Rect>)
    ensures r.Some? <==> w.editing.Some?
    ensures Valid(w) && r.Some? ==> Within(r.value, w.editing.value.size)
  {
    if w.editing.Some? then Some(w.editing.value.rect) else None
  }

  /** One user event on the editor. */
  datatype Event = SetFrameEvent(frame: Option<Size>) | PressEvent(px: int, py: int)
                 | MoveEvent(mx: int, my: int) | ReleaseEvent

  /** Frames have non-negative dimensions, so a negative size is never set. */
  function Apply(w: ClipWidget, ev: Event): (w': ClipWidget)
    requires Valid(w)
    ensures Valid(w')
  {
    match ev
    case SetFrameEvent(f) =>
      if f.Some? && (f.value.width < 0 || f.value.height < 0) then w else SetFrame(w, f)
    case PressEvent(x, y) => Press(w, x, y)
    case MoveEvent(x, y) => Move(w, x, y)
    case ReleaseEvent => Release(w)
  }

  /** Whatever the user does, the rectangle the editor confirms lies inside
      the frame it was drawn on and is ordered. */
  lemma {:induction false} EventsKeepRectInFrame(w: ClipWidget, events: seq<Event>)
    requires Valid(w)
    ensures Valid(ApplyAll(w, events))
    ensures var r := ConfirmClip(ApplyAll(w, events));
      r.Some? ==> r.value.x1 <= r.value.x2 && r.value.y1 <= r.value.y2
    decreases |events|
  {
    if |events| > 0 {
      EventsKeepRectInFrame(Apply(w, events[0]), events[1..]);
    }
  }

  function ApplyAll(w: ClipWidget, events: seq<Event>): ClipWidget
    requires Valid(w)
    decreases |events|
  {
    if |events| == 0 then w else ApplyAll(Apply(w, events[0]), events[1..])
  }

  /** A fresh editor, whatever the user does to it, only ever confirms an
      ordered rectangle that lies inside the frame it was drawn on. */
  lemma FreshEditorConfirmsRectInFrame(events: seq<Event>)
    ensures var w := ApplyAll(NewClipWidget(), events);
      ConfirmClip(w).Some? ==>
        && w.editing.Some? && Within(ConfirmClip(w).value, w.editing.value.size)
        && ConfirmClip(w).value.x1 <= ConfirmClip(w).value.x2
        && ConfirmClip(w).value.y1 <= ConfirmClip(w).value.y2
  {
    EventsKeepRectInFrame(NewClipWidget(), events);
  }
}

=== FILE: decimal.dfy ===
/** Decimal text as Python writes and reads it for the editor's integers:
    `str(n)`, `int(text)`, `int(text or 0)` and the `{n:06d}` format used in
    output file names. */
module Decimal {
  import opened Wrappers

  predicate IsDigit(c: char) {
    '0' <= c <= '9'
  }

  predicate AllDigits(s: string) {
    forall i :: 0 <= i < |s| ==> IsDigit(s[i])
  }

  function DigitValue(c: char): (d: nat)
    requires IsDigit(c)
    ensures d < 10
  {
    (c as int) - ('0' as int)
  }

  function DigitChar(d: nat): (c: char)
    requires d < 10
    ensures IsDigit(c) && DigitValue(c) == d
  {
    (('0' as int) + d) as char
  }

  function Pow10(k: nat): (p: nat)
    ensures p >= 1
  {
    if k == 0 then 1 else 10 * Pow10(k - 1)
  }

  /** The digits of `n`, most significant first, with no leading zero:
      Python's `str(n)` for `n >= 0`. */
  function NatToDigits(n: nat): (s: string)
    ensures |s| >= 1 && AllDigits(s)
    ensures |s| > 1 ==> s[0] != '0'
  {
    if n < 10 then [DigitChar(n)] else NatToDigits(n / 10) + [DigitChar(n % 10)]
  }

  /** The number a string of digits denotes (leading zeros allowed). */
  function DigitsValue(s: string): nat
    requires AllDigits(s)
  {
    if |s| == 0 then 0 else DigitsValue(s[..|s| - 1]) * 10 + DigitValue(s[|s| - 1])
  }

  /** Python's `str(n)`. */
  function Show(n: int): string {
    if n < 0 then "-" + NatToDigits(-n) else NatToDigits(n)
  }

  /** Python's `int(text)` on the texts the editor's fields can hold: an
      optional sign followed by at least one ASCII digit. Anything else
      raises `ValueError`, modelled as `None`. */
  function ParseInt(text: string): Option<int> {
    if |text| > 0 && (text[0] == '-' || text[0] == '+') then
      if |text| > 1 && AllDigits(text[1..]) then
        var magnitude: int := DigitsValue(text[1..]);
        Some(if text[0] == '-' then -magnitude else magnitude)
      else None
    else if |text| > 0 && AllDigits(text) then Some(DigitsValue(text))
    else None
  }

  /** `int(text or 0)`: an empty field reads as zero. */
  function ReadField(text: string): Option<int> {
    if text == "" then Some(0) else ParseInt(text)
  }

  /** `s` preceded by as many `'0'` as make it `width` long. */
  function ZeroPad(s: string, width: nat): string
    decreases width - |s|
  {
    if |s| >= width then s else ZeroPad(['0'] + s, width)
  }

  /** Padding only adds zeros, in front, up to the width. */
  lemma {:induction false} ZeroPadShape(s: string, width: nat)
    ensures var r := ZeroPad(s, width);
      && |r| == (if |s| >= width then |s| else width)
      && r[|r| - |s|..] == s
      && forall i :: 0 <= i < |r| - |s| ==> r[i] == '0'
    decreases width - |s|
  {
    if |s| < width {
      ZeroPadShape(['0'] + s, width);
      var r := ZeroPad(s, width);
      assert r[|r| - |s| - 1..] == ['0'] + s;
      assert r[|r| - |s|..] == (['0'] + s)[1..];
    }
  }

  /** Python's `f"{n:06d}"`: zero-padded to a total width of six, the sign
      counting towards the width; longer numbers are not truncated. */
  function Format06(n: int): string {
    if n < 0 then "-" + ZeroPad(NatToDigits(-n), 5) else ZeroPad(NatToDigits(n), 6)
  }

  // ---------------------------------------------------------------------
  // Round trips

  lemma {:induction false} DigitsRoundTrip(n: nat)
    ensures DigitsValue(NatToDigits(n)) == n
  {
    if n >= 10 {
      var s := NatToDigits(n);
      assert s[..|s| - 1] == NatToDigits(n / 10);
      DigitsRoundTrip(n / 10);
    }
  }

  /** Leading zeros do not change the value of a digit string. */
  lemma {:induction false} LeadingZerosIgnored(z: string, s: string)
    requires forall i :: 0 <= i < |z| ==> z[i] == '0'
    requires AllDigits(s)
    ensures AllDigits(z + s) && DigitsValue(z + s) == DigitsValue(s)
  {
    assert AllDigits(z + s) by {
      forall i | 0 <= i < |z + s| ensures IsDigit((z + s)[i]) {
        if i < |z| { assert (z + s)[i] == z[i]; } else { assert (z + s)[i] == s[i - |z|]; }
      }
    }
    if |s| == 0 {
      assert z + s == z;
      AllZerosValue(z);
    } else {
      assert (z + s)[..|z + s| - 1] == z + s[..|s| - 1];
      LeadingZerosIgnored(z, s[..|s| - 1]);
    }
  }

  lemma {:induction false} AllZerosValue(z: string)
    requires forall i :: 0 <= i < |z| ==> z[i] == '0'
    ensures AllDigits(z) && DigitsValue(z) == 0
  {
    if |z| > 0 {
      AllZerosValue(z[..|z| - 1]);
    }
  }

  /** `int(str(n)) == n` for every integer. */
  lemma ShowParses(n: int)
    ensures ParseInt(Show(n)) == Some(n)
    ensures ReadField(Show(n)) == Some(n)
  {
    var d := NatToDigits(if n < 0 then -n else n);
    DigitsRoundTrip(if n < 0 then -n else n);
    if n < 0 {
      assert Show(n)[1..] == d;
    }
  }

  /** A `{n:06d}` stem reads back, through `int()`, as `n`: leading zeros
      are accepted by Python's `int`. */
  lemma Format06Parses(n: int)
    ensures ParseInt(Format06(n)) == Some(n)
  {
    if n < 0 {
      var p := PaddedValue(-n, 5);
      ParseNegative(p);
    } else {
      var p := PaddedValue(n, 6);
      ParseDigits(p);
    }
  }

  lemma ParseDigits(p: string)
    requires |p| >= 1 && AllDigits(p)
    ensures ParseInt(p) == Some(DigitsValue(p) as int)
  {
    assert IsDigit(p[0]);
  }

  lemma ParseNegative(p: string)
    requires |p| >= 1 && AllDigits(p)
    ensures ParseInt("-" + p) == Some(-(DigitsValue(p) as int))
  {
    var t := "-" + p;
    assert t[0] == '-' && t[1..] == p;
  }

  /** A zero-padded rendering of `m` is a digit string denoting `m`. */
  lemma PaddedValue(m: nat, width: nat) returns (p: string)
    ensures p == ZeroPad(NatToDigits(m), width)
    ensures |p| >= 1 && AllDigits(p) && DigitsValue(p) == m
  {
    var d := NatToDigits(m);
    p := ZeroPad(d, width);
    ZeroPadShape(d, width);
    var z := p[..|p| - |d|];
    assert p == z + d;
    LeadingZerosIgnored(z, d);
    DigitsRoundTrip(m);
  }

  /** Numbers below `10^k` need at most `k` digits. */
  lemma {:induction false} DigitsLength(n: nat, k: nat)
    requires 1 <= k && n < Pow10(k)
    ensures |NatToDigits(n)| <= k
  {
    assert Pow10(k) == 10 * Pow10(k - 1);
    if n >= 10 {
      DigitsLength(n / 10, k - 1);
    }
  }

  /** For `0 <= n < 10^6` the stem is exactly six decimal digits. */
  lemma Format06SixDigits(n: int)
    requires 0 <= n < 1000000
    ensures |Format06(n)| == 6 && AllDigits(Format06(n))
    ensures DigitsValue(Format06(n)) == n
  {
    assert Pow10(6) == 1000000;
    DigitsLength(n, 6);
    var p := PaddedValue(n, 6);
    ZeroPadShape(NatToDigits(n), 6);
  }

  /** Distinct indices get distinct stems, so no output file overwrites another. */
  lemma Format06Injective(a: int, b: int)
    requires a != b
    ensures Format06(a) != Format06(b)
  {
    Format06Parses(a);
    Format06Parses(b);
  }
}

=== FILE: export.dfy ===
/** What `save_current` and `save_video_segment` write: the format decides
    between one image, one image per segment frame, or one video; names are
    zero-padded frame numbers inside `<stem>_frames`; frames are read from
    the segment start until its end or the first failed read. */
module Export {
  import opened Wrappers
  import opened Geometry
  import opened Decimal
  import opened Frames
  import Paths

  /** The three branches of `save_current`. */
  datatype Mode =
    | SingleImage(ext: string)    // ".jpg" / ".png": the displayed frame only
    | ImageSequence(ext: string)  // "*.jpg" / "*.png": every frame of the segment
    | VideoFile(ext: string)      // anything else: the segment as one video

  /** Dispatch on the format text of the save combo box. */
  function PlanExport(format: string): (m: Mode)
    ensures m.SingleImage? <==> format == ".jpg" || format == ".png"
    ensures m.ImageSequence? <==> format == "*.jpg" || format == "*.png"
    ensures m.ImageSequence? ==> "*" + m.ext == format
    ensures !m.ImageSequence? ==> m.ext == format
  {
    if format == ".jpg" || format == ".png" then SingleImage(format)
    else if format == "*.jpg" || format == "*.png" then ImageSequence(format[1..])
    else VideoFile(format)
  }

  /** `f"{n:06d}{ext}"`: the name of the image of frame `n`. */
  function FrameFileName(n: int, ext: string): string {
    Format06(n) + ext
  }

  /** `f"{begin:06d}-{end:06d}{ext}"`: the name of a segment video. */
  function VideoFileName(begin: int, end: int, ext: string): string {
    Format06(begin) + "-" + Format06(end) + ext
  }

  /** Everything `save_current` can produce: a file `name` in directory
      `dir`, written at `os.path.join(dir, name)`. A video records the size
      its writer was opened with and the frames handed to it. */
  datatype Output =
    | ImageFile(dir: string, name: string, image: Frame)
    | Video(dir: string, name: string, size: Size, frames: seq<Frame>)

  // ---------------------------------------------------------------------
  // Names

  /** For frames below a million the image name is six digits spelling the
      frame number, then the extension. */
  lemma FrameFileNameShape(n: int, ext: string)
    requires 0 <= n < 1000000
    ensures var name := FrameFileName(n, ext);
      && |name| == 6 + |ext|
      && AllDigits(name[..6]) && DigitsValue(name[..6]) == n
      && name[6..] == ext
  {
    Format06SixDigits(n);
    var name := FrameFileName(n, ext);
    assert name[..6] == Format06(n);
    assert name[6..] == ext;
  }

  /** Any image name reads back, before its extension, as the frame number. */
  lemma FrameFileNameParses(n: int, ext: string)
    ensures var name := FrameFileName(n, ext);
      |ext| <= |name| && name[|name| - |ext|..] == ext
      && ParseInt(name[..|name| - |ext|]) == Some(n)
  {
    var name := FrameFileName(n, ext);
    assert name[..|name| - |ext|] == Format06(n);
    assert name[|name| - |ext|..] == ext;
    Format06Parses(n);
  }

  /** Images of different frames never share a name. */
  lemma FrameFileNamesDistinct(n: int, m: int, ext: string)
    requires n != m
    ensures FrameFileName(n, ext) != FrameFileName(m, ext)
  {
    FrameFileNameParses(n, ext);
    FrameFileNameParses(m, ext);
  }

  /** A segment video's name is the begin stem, a dash, the end stem and
      the format. */
  lemma VideoFileNameShape(begin: int, end: int, ext: string)
    requires 0 <= begin < 1000000 && 0 <= end < 1000000
    ensures var name := VideoFileName(begin, end, ext);
      && |name| == 13 + |ext|
      && AllDigits(name[..6]) && DigitsValue(name[..6]) == begin
      && name[6] == '-'
      && AllDigits(name[7..13]) && DigitsValue(name[7..13]) == end
      && name[13..] == ext
  {
    Format06SixDigits(begin);
    Format06SixDigits(end);
    var name := VideoFileName(begin, end, ext);
    assert name[..6] == Format06(begin);
    assert name[7..13] == Format06(end);
    assert name[13..] == ext;
  }

  /** The image and sequence names carry no separator, so each output lands
      directly in `<stem>_frames`. */
  lemma OutputLandsInFramesDir(input: string, n: int, ext: string)
    requires Paths.NoSlash(ext)
    ensures var path := Paths.OutputPath(input, FrameFileName(n, ext));
      && Paths.Dirname(path) == Paths.FramesDir(input)
      && Paths.Basename(path) == FrameFileName(n, ext)
  {
    var name := FrameFileName(n, ext);
    FormatNoSlash(n);
    assert Paths.NoSlash(name) by {
      forall i | 0 <= i < |name| ensures name[i] != '/' {
        if i < |Format06(n)| { assert name[i] == Format06(n)[i]; }
        else { assert name[i] == ext[i - |Format06(n)|]; }
      }
    }
    Paths.OutputPathSplits(input, name);
  }

  lemma FormatNoSlash(n: int)
    ensures Paths.NoSlash(Format06(n)) && |Format06(n)| >= 1
  {
    var m: nat := if n < 0 then -n else n;
    var p := PaddedValue(m, if n < 0 then 5 else 6);
    if n < 0 {
      assert Format06(n) == "-" + p;
      forall i | 0 <= i < |Format06(n)| ensures Format06(n)[i] != '/' {
        if i > 0 { assert Format06(n)[i] == p[i - 1]; }
      }
    }
  }

  // ---------------------------------------------------------------------
  // The export loops

  /** How many frames an export of `[begin, end)` reaches when `available`
      reads succeed before the first failure. */
  function WrittenCount(begin: int, end: int, available: nat): (n: nat)
    ensures n <= available
    ensures begin < end && available >= end - begin ==> n == end - begin
    ensures available < end - begin ==> n == available
    ensures end <= begin ==> n == 0
  {
    if end <= begin then 0 else Min(end - begin, available)
  }

  predicate AllWellFormed(frames: seq<Frame>) {
    forall k :: 0 <= k < |frames| ==> WellFormed(frames[k])
  }

  /** The files an image-sequence export writes into `dir`: stream frame `k`
      after crop and resize in file `<begin + k:06d><ext>`, for each frame
      reached before `end` or the first failed read. The export raises
      (`failed`) at the first frame whose crop leaves no pixels:
      `cv2.resize` raises on it when a resize is set, `cv2.imencode`
      otherwise. */
  predicate SequenceFiles(files: seq<Output>, failed: bool, dir: string, stream: seq<Frame>,
                          begin: int, end: int, ext: string, clip: Option<Rect>,
                          resize: Option<Size>, scale: Scaler)
    requires AllWellFormed(stream) && Resizes(scale)
    requires resize.Some? ==> PositiveSize(resize.value)
  {
    var reached := WrittenCount(begin, end, |stream|);
    && |files| <= reached
    && (failed <==> |files| < reached)
    && (failed ==> Empty(Cropped(stream[|files|], clip)))
    && ImageFiles(files, dir, stream, begin, ext, clip, resize, scale)
  }

  /** `files[k]` is stream frame `k` after crop and resize, named
      `<begin + k:06d><ext>`, and none of these frames was cropped empty. */
  predicate ImageFiles(files: seq<Output>, dir: string, stream: seq<Frame>, begin: int, ext: string,
                       clip: Option<Rect>, resize: Option<Size>, scale: Scaler)
    requires AllWellFormed(stream) && Resizes(scale)
    requires resize.Some? ==> PositiveSize(resize.value)
  {
    && |files| <= |stream|
    && forall k :: 0 <= k < |files| ==>
         && !Empty(Cropped(stream[k], clip))
         && files[k] == ImageFile(dir, FrameFileName(begin + k, ext),
                                  Transform(stream[k], clip, resize, scale))
  }

  /** Appending the file for the next stream frame keeps `ImageFiles`. */
  lemma ImageFilesExtend(files: seq<Output>, dir: string, stream: seq<Frame>, begin: int, ext: string,
                         clip: Option<Rect>, resize: Option<Size>, scale: Scaler)
    requires AllWellFormed(stream) && Resizes(scale)
    requires resize.Some? ==> PositiveSize(resize.value)
    requires ImageFiles(files, dir, stream, begin, ext, clip, resize, scale)
    requires |files| < |stream| && !Empty(Cropped(stream[|files|], clip))
    ensures var next := Transform(stream[|files|], clip, resize, scale);
      ImageFiles(files + [ImageFile(dir, FrameFileName(begin + |files|, ext), next)],
                 dir, stream, begin, ext, clip, resize, scale)
  {
    var next := Transform(stream[|files|], clip, resize, scale);
    var longer := files + [ImageFile(dir, FrameFileName(begin + |files|, ext), next)];
    forall k | 0 <= k < |longer|
      ensures !Empty(Cropped(stream[k], clip))
      ensures longer[k] == ImageFile(dir, FrameFileName(begin + k, ext), Transform(stream[k], clip, resize, scale))
    {
      if k < |files| {
        assert longer[k] == files[k];
      }
    }
  }

  /** `frames[k]` is stream frame `k` after crop and resize, for every `k`,
      and none of these frames made the resize raise. */
  predicate TransformedFrames(frames: seq<Frame>, stream: seq<Frame>, clip: Option<Rect>,
                              resize: Option<Size>, scale: Scaler)
    requires AllWellFormed(stream) && Resizes(scale)
    requires resize.Some? ==> PositiveSize(resize.value)
  {
    && |frames| <= |stream|
    && forall k :: 0 <= k < |frames| ==>
         !ResizeRaises(stream[k], clip, resize) && frames[k] == Transform(stream[k], clip, resize, scale)
  }

  /** Appending the next stream frame, transformed, keeps `TransformedFrames`. */
  lemma TransformedFramesExtend(frames: seq<Frame>, stream: seq<Frame>, clip: Option<Rect>,
                                resize: Option<Size>, scale: Scaler)
    requires AllWellFormed(stream) && Resizes(scale)
    requires resize.Some? ==> PositiveSize(resize.value)
    requires TransformedFrames(frames, stream, clip, resize, scale)
    requires |frames| < |stream| && !ResizeRaises(stream[|frames|], clip, resize)
    ensures TransformedFrames(frames + [Transform(stream[|frames|], clip, resize, scale)],
                              stream, clip, resize, scale)
  {
    var longer := frames + [Transform(stream[|frames|], clip, resize, scale)];
    forall k | 0 <= k < |longer|
      ensures !ResizeRaises(stream[k], clip, resize) && longer[k] == Transform(stream[k], clip, resize, scale)
    {
      if k < |frames| {
        assert longer[k] == frames[k];
      }
    }
  }

  /** The frames a video export hands to the writer: every frame reached
      before `end` or the first failed read, transformed, unless a resize
      raises first; `complete` says that none did. */
  predicate VideoFrames(frames: seq<Frame>, complete: bool, stream: seq<Frame>, begin: int, end: int,
                        clip: Option<Rect>, resize: Option<Size>, scale: Scaler)
    requires AllWellFormed(stream) && Resizes(scale)
    requires resize.Some? ==> PositiveSize(resize.value)
  {
    var reached := WrittenCount(begin, end, |stream|);
    && |frames| <= reached
    && (complete <==> |frames| == reached)
    && (!complete ==> ResizeRaises(stream[|frames|], clip, resize))
    && TransformedFrames(frames, stream, clip, resize, scale)
  }

  /** The `*.jpg` / `*.png` branch of `save_current`. `stream` holds the
      frames the capture returns from the segment start on, up to (not
      including) its first failed read. Frame `begin + k` is written, after
      crop and resize, to `<begin + k:06d><ext>` in `dir`; a frame the crop
      empties raises and ends the export. */
  method ExportSequence(dir: string, stream: seq<Frame>, begin: int, end: int, ext: string,
                        clip: Option<Rect>, resize: Option<Size>, scale: Scaler)
    returns (files: seq<Output>, failed: bool)
    requires AllWellFormed(stream) && Resizes(scale)
    requires resize.Some? ==> PositiveSize(resize.value)
    ensures SequenceFiles(files, failed, dir, stream, begin, end, ext, clip, resize, scale)
  {
    var frameCount := begin;
    files := [];
    failed := false;
    while frameCount < end
      invariant |files| == frameCount - begin
      invariant |files| <= |stream|
      invariant begin < end ==> frameCount <= end
      invariant begin >= end ==> frameCount == begin
      invariant ImageFiles(files, dir, stream, begin, ext, clip, resize, scale)
    {
      if frameCount - begin >= |stream| {
        break;
      }
      var frame := stream[frameCount - begin];
      if Empty(Cropped(frame, clip)) {
        failed := true;
        break;
      }
      var file := ImageFile(dir, FrameFileName(frameCount, ext), Transform(frame, clip, resize, scale));
      ImageFilesExtend(files, dir, stream, begin, ext, clip, resize, scale);
      files := files + [file];
      frameCount := frameCount + 1;
    }
  }

  /** `save_video_segment`: a writer that fails to open raises before any
      frame is read (`None`). Otherwise the writer is opened with
      `WriterSize`, as the source computes it, and frames `begin, begin + 1,
      ...` are transformed and written in order until `end`, the first
      failed read, or a resize that raises (`complete` false; the frames
      written so far stay in the file). */
  method ExportVideo(dir: string, name: string, source: Size, stream: seq<Frame>, begin: int, end: int,
                     clip: Option<Rect>, resize: Option<Size>, scale: Scaler, writerOpens: bool)
    returns (video: Option<Output>, complete: bool)
    requires AllWellFormed(stream) && Resizes(scale)
    requires resize.Some? ==> PositiveSize(resize.value)
    ensures video.Some? <==> writerOpens
    ensures video.None? ==> !complete
    ensures video.Some? ==>
      && video.value.Video?
      && video.value.dir == dir && video.value.name == name
      && video.value.size == WriterSize(source, clip, resize)
      && VideoFrames(video.value.frames, complete, stream, begin, end, clip, resize, scale)
  {
    if !writerOpens {
      return None, false;
    }
    var size := WriterSize(source, clip, resize);
    var written: seq<Frame> := [];
    var i := begin;
    complete := true;
    while i < end
      invariant |written| == i - begin
      invariant |written| <= |stream|
      invariant begin < end ==> i <= end
      invariant begin >= end ==> i == begin
      invariant TransformedFrames(written, stream, clip, resize, scale)
    {
      if i - begin >= |stream| {
        break;
      }
      var frame := stream[i - begin];
      if ResizeRaises(frame, clip, resize) {
        complete := false;
        break;
      }
      TransformedFramesExtend(written, stream, clip, resize, scale);
      written := written + [Transform(frame, clip, resize, scale)];
      i := i + 1;
    }
    return Some(Video(dir, name, size, written)), complete;
  }

  /** Every frame an export hands to the writer has `FrameSize` when the
      source frames have the capture's reported size. That is the size the
      writer was opened with (`WriterSize`) when there is no crop, a resize
      is set, or the crop lies in the frame; `WriterSizeMismatch` shows that
      it can differ otherwise. */
  lemma VideoFramesFitWriter(source: Size, stream: seq<Frame>, clip: Option<Rect>,
                             resize: Option<Size>, scale: Scaler, frames: seq<Frame>)
    requires source.width >= 0 && source.height >= 0
    requires AllWellFormed(stream) && Resizes(scale)
    requires resize.Some? ==> PositiveSize(resize.value)
    requires forall k :: 0 <= k < |stream| ==> Dims(stream[k]) == source
    requires TransformedFrames(frames, stream, clip, resize, scale)
    ensures forall k :: 0 <= k < |frames| ==> Dims(frames[k]) == FrameSize(source, clip, resize)
    ensures clip.None? || resize.Some? || Within(clip.value, source) ==>
      forall k :: 0 <= k < |frames| ==> Dims(frames[k]) == WriterSize(source, clip, resize)
  {
    forall k | 0 <= k < |frames| ensures Dims(frames[k]) == FrameSize(source, clip, resize) {
      FrameSizeMatches(stream[k], clip, resize, scale);
    }
  }
}

=== FILE: frames.dfy ===
/** Decoded frames and the per-frame transform of the export path: numpy's
    `frame[y1:y2, x1:x2]` crop followed by `cv2.resize`, which the model
    treats as an opaque function known only to produce the requested size. */
module Frames {
  import opened Wrappers
  import opened Geometry

  datatype Pixel = Pixel(blue: int, green: int, red: int)

  /** A frame: `height` rows of `width` pixels. */
  datatype Frame = Frame(width: nat, height: nat, rows: seq<seq<Pixel>>)

  predicate WellFormed(f: Frame) {
    |f.rows| == f.height && forall i :: 0 <= i < |f.rows| ==> |f.rows[i]| == f.width
  }

  function Dims(f: Frame): Size {
    Size(f.width, f.height)
  }

  /** Python's normalisation of one slice bound on a length-`n` axis:
      negative bounds count from the end, and both ends are cut to `[0, n]`. */
  function SliceIndex(n: nat, a: int): (k: nat)
    ensures k <= n
    ensures 0 <= a <= n ==> k == a
  {
    if a < 0 then (if a + n < 0 then 0 else a + n) else if a > n then n else a
  }

  /** The index range `s[a:b]` covers on a length-`n` axis. */
  function SliceRange(n: nat, a: int, b: int): (range: (nat, nat))
    ensures range.0 <= range.1 <= n
    ensures 0 <= a <= b <= n ==> range == (a, b)
  {
    var lo := SliceIndex(n, a);
    var hi := SliceIndex(n, b);
    (lo, if hi < lo then lo else hi)
  }

  /** Rows `ys.0 .. ys.1` of `rows`, each cut to columns `xs.0 .. xs.1`. */
  function SliceRows(rows: seq<seq<Pixel>>, ys: (nat, nat), xs: (nat, nat)): (out: seq<seq<Pixel>>)
    requires ys.0 <= ys.1 <= |rows| && xs.0 <= xs.1
    requires forall i :: ys.0 <= i < ys.1 ==> xs.1 <= |rows[i]|
    ensures |out| == ys.1 - ys.0
    ensures forall i :: 0 <= i < |out| ==> out[i] == rows[ys.0 + i][xs.0..xs.1]
    decreases ys.1 - ys.0
  {
    if ys.0 == ys.1 then [] else [rows[ys.0][xs.0..xs.1]] + SliceRows(rows, (ys.0 + 1, ys.1), xs)
  }

  /** `frame[y1:y2, x1:x2]` with numpy's slicing rules: a rectangle reaching
      outside the frame is cut to it rather than rejected. */
  function Crop(f: Frame, r: Rect): (c: Frame)
    requires WellFormed(f)
    ensures WellFormed(c)
    ensures c.width <= f.width && c.height <= f.height
    ensures Within(r, Dims(f)) ==> Dims(c) == Size(r.Width(), r.Height())
    ensures Within(r, Dims(f)) ==>
      forall i, j :: 0 <= i < c.height && 0 <= j < c.width ==> c.rows[i][j] == f.rows[r.y1 + i][r.x1 + j]
  {
    var ys := SliceRange(f.height, r.y1, r.y2);
    var xs := SliceRange(f.width, r.x1, r.x2);
    Frame(xs.1 - xs.0, ys.1 - ys.0, SliceRows(f.rows, ys, xs))
  }

  /** A frame without pixels: numpy's slice of a collapsed rectangle. */
  predicate Empty(f: Frame) {
    f.width == 0 || f.height == 0
  }

  /** `cv2.resize(frame, (width, height))`, supplied by the caller. */
  type Scaler = (Frame, int, int) -> Frame

  /** All the model knows of the resizer: given pixels, it yields a frame of
      the size asked. On an empty source it raises (see `ResizeRaises`). */
  ghost predicate Resizes(scale: Scaler) {
    forall f: Frame, w: int, h: int :: w >= 1 && h >= 1 && !Empty(f) ==>
      WellFormed(scale(f, w, h)) && Dims(scale(f, w, h)) == Size(w, h)
  }

  /** A resize target the size spin boxes can produce. */
  predicate PositiveSize(s: Size) {
    s.width >= 1 && s.height >= 1
  }

  /** The crop step of the export transform: the frame itself when no crop
      is set. */
  function Cropped(f: Frame, clip: Option<Rect>): (c: Frame)
    requires WellFormed(f)
    ensures WellFormed(c)
    ensures clip.None? ==> c == f
    ensures clip.Some? && Within(clip.value, Dims(f)) ==>
      Dims(c) == Size(clip.value.Width(), clip.value.Height())
  {
    if clip.Some? then Crop(f, clip.value) else f
  }

  /** `cv2.resize` raises on an empty source: a resize is set and the crop
      leaves no pixels. */
  predicate ResizeRaises(f: Frame, clip: Option<Rect>, resize: Option<Size>)
    requires WellFormed(f)
  {
    resize.Some? && Empty(Cropped(f, clip))
  }

  /** The export transform: crop if a crop is set, then resize if a size is
      set. Only defined where the resize does not raise. */
  function Transform(f: Frame, clip: Option<Rect>, resize: Option<Size>, scale: Scaler): (t: Frame)
    requires WellFormed(f) && Resizes(scale)
    requires resize.Some? ==> PositiveSize(resize.value)
    requires !ResizeRaises(f, clip, resize)
    ensures WellFormed(t)
    ensures resize.Some? ==> Dims(t) == resize.value
    ensures resize.None? && clip.Some? && Within(clip.value, Dims(f)) ==>
      Dims(t) == Size(clip.value.Width(), clip.value.Height())
    ensures clip.None? && resize.None? ==> t == f
    ensures Empty(t) <==> Empty(Cropped(f, clip))
  {
    var cropped := Cropped(f, clip);
    if resize.Some? then scale(cropped, resize.value.width, resize.value.height) else cropped
  }

  /** A crop collapsed to zero width or height, which dragging a corner past
      the opposite edge produces, makes every resize raise. */
  lemma CollapsedCropRaises(f: Frame, r: Rect, resize: Size)
    requires WellFormed(f) && Within(r, Dims(f))
    requires r.x1 == r.x2 || r.y1 == r.y2
    ensures ResizeRaises(f, Some(r), Some(resize))
  {
  }

  // ---------------------------------------------------------------------
  // Output dimensions

  /** `save_video_segment`'s writer size, as written: the source size,
      replaced by the crop's `(x2 - x1, y2 - y1)` if a crop is set, replaced
      by the resize target if one is set. */
  function WriterSize(source: Size, clip: Option<Rect>, resize: Option<Size>): (s: Size)
    ensures resize.Some? ==> s == resize.value
    ensures resize.None? && clip.Some? ==> s == Size(clip.value.Width(), clip.value.Height())
    ensures resize.None? && clip.None? ==> s == source
  {
    var width := source.width;
    var height := source.height;
    var (width, height) := if clip.Some? then (clip.value.Width(), clip.value.Height()) else (width, height);
    var (width, height) := if resize.Some? then (resize.value.width, resize.value.height) else (width, height);
    Size(width, height)
  }

  /** The size the transformed frames actually have: like `WriterSize`, but
      the crop is first cut to the frame as numpy's slicing cuts it. */
  function FrameSize(source: Size, clip: Option<Rect>, resize: Option<Size>): (s: Size)
    requires source.width >= 0 && source.height >= 0
    ensures clip.Some? && Within(clip.value, source) ==> s == WriterSize(source, clip, resize)
    ensures clip.None? || resize.Some? ==> s == WriterSize(source, clip, resize)
  {
    if resize.Some? then resize.value
    else if clip.Some? then
      var xs := SliceRange(source.width, clip.value.x1, clip.value.x2);
      var ys := SliceRange(source.height, clip.value.y1, clip.value.y2);
      Size(xs.1 - xs.0, ys.1 - ys.0)
    else source
  }

  /** Every transformed frame of a `source`-sized video has `FrameSize`,
      whatever the crop rectangle. */
  lemma FrameSizeMatches(f: Frame, clip: Option<Rect>, resize: Option<Size>, scale: Scaler)
    requires WellFormed(f) && Resizes(scale)
    requires resize.Some? ==> PositiveSize(resize.value)
    requires !ResizeRaises(f, clip, resize)
    ensures Dims(Transform(f, clip, resize, scale)) == FrameSize(Dims(f), clip, resize)
  {
  }

  /** With the crop inside the frame, the writer is opened with exactly the
      size of the frames written to it: resize target, else crop, else source. */
  lemma WriterSizeMatches(f: Frame, clip: Option<Rect>, resize: Option<Size>, scale: Scaler)
    requires WellFormed(f) && Resizes(scale)
    requires resize.Some? ==> PositiveSize(resize.value)
    requires !ResizeRaises(f, clip, resize)
    requires clip.Some? ==> Within(clip.value, Dims(f))
    ensures Dims(Transform(f, clip, resize, scale)) == WriterSize(Dims(f), clip, resize)
  {
    FrameSizeMatches(f, clip, resize, scale);
  }

  /** A crop from the origin that reaches past the frame's right and bottom
      edges is cut back to the whole frame. */
  lemma CropPastEdges(f: Frame, r: Rect)
    requires WellFormed(f)
    requires r.x1 == 0 && r.y1 == 0 && r.x2 >= f.width && r.y2 >= f.height
    ensures Dims(Crop(f, r)) == Dims(f)
  {
    assert SliceRange(f.width, r.x1, r.x2) == (0, f.width);
    assert SliceRange(f.height, r.y1, r.y2) == (0, f.height);
  }

  /** A crop drawn on a larger video and kept after loading a smaller one
      (loading does not clear it) opens the writer larger than the frames:
      here a crop twice the frame's size, as a crop drawn on a video of
      twice the resolution would be. */
  lemma WriterSizeMismatch(f: Frame, scale: Scaler)
    requires WellFormed(f) && Resizes(scale) && !Empty(f)
    ensures var clip := Some(Rect(0, 0, 2 * f.width, 2 * f.height));
      && Dims(Transform(f, clip, None, scale)) == Dims(f)
      && WriterSize(Dims(f), clip, None) == Size(2 * f.width, 2 * f.height)
      && WriterSize(Dims(f), clip, None) != Dims(Transform(f, clip, None, scale))
  {
    CropPastEdges(f, Rect(0, 0, 2 * f.width, 2 * f.height));
  }

  /** Cropping a frame to its own bounds gives the same frame. */
  lemma CropWholeFrame(f: Frame)
    requires WellFormed(f)
    ensures Crop(f, FullFrame(Dims(f))) == f
  {
    var c := Crop(f, FullFrame(Dims(f)));
    assert |c.rows| == |f.rows|;
    forall i | 0 <= i < |f.rows| ensures c.rows[i] == f.rows[i] {
      assert f.rows[i][0..f.width] == f.rows[i];
    }
  }

  /** Cropping an already-cropped frame to its own bounds changes nothing. */
  lemma CropIdempotent(f: Frame, r: Rect)
    requires WellFormed(f) && Within(r, Dims(f))
    ensures var c := Crop(f, r); Crop(c, Rect(0, 0, r.Width(), r.Height())) == c
  {
    var c := Crop(f, r);
    assert Rect(0, 0, r.Width(), r.Height()) == FullFrame(Dims(c));
    CropWholeFrame(c);
  }
}

=== FILE: geometry.dfy ===
/** Pixel sizes and rectangles shared by the crop editor and the export path. */
module Geometry {

  /** A frame or output size, `(width, height)`. */
  datatype Size = Size(width: int, height: int)

  /** A crop rectangle `(x1, y1, x2, y2)`: top-left and bottom-right corners
      in source-pixel coordinates, the bottom-right one exclusive. */
  datatype Rect = Rect(x1: int, y1: int, x2: int, y2: int) {
    function Width(): int { x2 - x1 }
    function Height(): int { y2 - y1 }
  }

  /** The rectangle is ordered and lies inside a frame of the given size. */
  predicate Within(r: Rect, s: Size) {
    0 <= r.x1 <= r.x2 <= s.width && 0 <= r.y1 <= r.y2 <= s.height
  }

  /** The rectangle covering the whole frame, `[0, 0, w, h]`. */
  function FullFrame(s: Size): (r: Rect)
    ensures r.Width() == s.width && r.Height() == s.height
    ensures s.width >= 0 && s.height >= 0 ==> Within(r, s)
    ensures forall q :: Within(q, s) ==> r.x1 <= q.x1 && r.y1 <= q.y1 && q.x2 <= r.x2 && q.y2 <= r.y2
  {
    Rect(0, 0, s.width, s.height)
  }

  function Min(a: int, b: int): int { if a <= b then a else b }
  function Max(a: int, b: int): int { if a >= b then a else b }
}

=== FILE: paths.dfy ===
/** The POSIX path arithmetic `save_current` uses to place its output next
    to the input video (`os.path.dirname`, `basename`, `splitext`, `join`),
    and the case-insensitive extension test of `load_video`. Paths are
    strings with `/` as the only separator. */
module Paths {

  /** Python's `s.rfind(c)`: the last index holding `c`, or -1. */
  function LastIndex(s: string, c: char): (i: int)
    ensures -1 <= i < |s|
    ensures i >= 0 ==> s[i] == c
    ensures forall j :: i < j < |s| ==> s[j] != c
  {
    if |s| == 0 then -1
    else if s[|s| - 1] == c then |s| - 1
    else LastIndex(s[..|s| - 1], c)
  }

  predicate NoSlash(s: string) {
    forall i :: 0 <= i < |s| ==> s[i] != '/'
  }

  predicate AllSlashes(s: string) {
    forall i :: 0 <= i < |s| ==> s[i] == '/'
  }

  predicate EndsWith(s: string, suffix: string) {
    |suffix| <= |s| && s[|s| - |suffix|..] == suffix
  }

  /** `os.path.basename`: the text after the last separator. */
  function Basename(p: string): (b: string)
    ensures NoSlash(b)
    ensures EndsWith(p, b)
    ensures |b| < |p| ==> p[|p| - |b| - 1] == '/'
  {
    p[LastIndex(p, '/') + 1..]
  }

  /** `s.rstrip('/')`. */
  function StripTrailingSlashes(s: string): (r: string)
    ensures |r| <= |s| && r == s[..|r|]
    ensures r == [] || r[|r| - 1] != '/'
    ensures AllSlashes(s[|r|..])
  {
    if |s| > 0 && s[|s| - 1] == '/' then
      var r := StripTrailingSlashes(s[..|s| - 1]);
      assert s[|r|..] == s[..|s| - 1][|r|..] + [s[|s| - 1]];
      r
    else
      s
  }

  /** `os.path.dirname`: everything up to the last separator, with trailing
      separators removed unless the head is made of separators only. */
  function Dirname(p: string): string {
    var head := p[..LastIndex(p, '/') + 1];
    if head != [] && !AllSlashes(head) then StripTrailingSlashes(head) else head
  }

  /** `os.path.splitext`: the extension is the part from the last dot of the
      final component, provided that component has a character other than a
      dot before it; otherwise it is empty. */
  function Splitext(p: string): (parts: (string, string))
    ensures parts.0 + parts.1 == p
    ensures parts.1 == [] || (parts.1[0] == '.' && NoSlash(parts.1))
  {
    var sepIndex := LastIndex(p, '/');
    var dotIndex := LastIndex(p, '.');
    if dotIndex > sepIndex && exists k :: sepIndex < k < dotIndex && p[k] != '.' then
      assert p == p[..dotIndex] + p[dotIndex..];
      (p[..dotIndex], p[dotIndex..])
    else
      (p, [])
  }

  /** `os.path.join(a, b)` for two components. */
  function Join(a: string, b: string): string {
    if |b| > 0 && b[0] == '/' then b
    else if a == [] || a[|a| - 1] == '/' then a + b
    else a + "/" + b
  }

  /** The input file's name without its extension. */
  function Stem(input: string): string {
    Splitext(Basename(input)).0
  }

  /** The directory `save_current` writes into: `<stem>_frames` beside the input. */
  function FramesDir(input: string): string {
    Join(Dirname(input), Stem(input) + "_frames")
  }

  /** Where an output named `name` is written. */
  function OutputPath(input: string, name: string): string {
    Join(FramesDir(input), name)
  }

  // ---------------------------------------------------------------------
  // The extension check of `load_video`

  function LowerChar(c: char): char {
    if 'A' <= c <= 'Z' then (c as int + 32) as char else c
  }

  /** `s.lower()` on ASCII letters. */
  function Lower(s: string): (r: string)
    ensures |r| == |s|
    ensures forall i :: 0 <= i < |s| ==> r[i] == LowerChar(s[i])
  {
    seq(|s|, i requires 0 <= i < |s| => LowerChar(s[i]))
  }

  /** `p.lower().endswith(('.mp4', '.avi', '.mov'))`. */
  predicate IsVideoFile(p: string) {
    var l := Lower(p);
    EndsWith(l, ".mp4") || EndsWith(l, ".avi") || EndsWith(l, ".mov")
  }

  // ---------------------------------------------------------------------
  // Properties

  lemma LowerSuffix(p: string, n: nat)
    requires n <= |p|
    ensures Lower(p)[|p| - n..] == Lower(p[|p| - n..])
  {
  }

  /** A path is accepted exactly when its last four characters, lower-cased,
      are one of the three extensions, whatever their case in the path. */
  lemma VideoFileIffSuffix(p: string)
    ensures IsVideoFile(p) <==>
      |p| >= 4 && Lower(p[|p| - 4..]) in {".mp4", ".avi", ".mov"}
  {
    if |p| >= 4 {
      LowerSuffix(p, 4);
    }
  }

  /** Any casing of an accepted extension is accepted after any stem. */
  lemma AcceptsEveryCasing(stem: string, ext: string)
    requires |ext| == 4 && Lower(ext) in {".mp4", ".avi", ".mov"}
    ensures IsVideoFile(stem + ext)
  {
    var p := stem + ext;
    assert p[|p| - 4..] == ext;
    VideoFileIffSuffix(p);
  }

  /** A join whose left side is non-empty and does not end in a separator
      puts exactly one separator between the two. */
  lemma JoinPlain(a: string, b: string)
    requires a != [] && a[|a| - 1] != '/'
    requires b == [] || b[0] != '/'
    ensures Join(a, b) == a + "/" + b
  {
  }

  /** Appending characters other than `c` does not move the last `c`. */
  lemma {:induction false} LastIndexSkips(s: string, t: string, c: char)
    requires forall j :: 0 <= j < |t| ==> t[j] != c
    ensures LastIndex(s + t, c) == LastIndex(s, c)
    decreases |t|
  {
    if t == [] {
      assert s + t == s;
    } else {
      var u := s + t;
      assert u[|u| - 1] == t[|t| - 1];
      assert u[..|u| - 1] == s + t[..|t| - 1];
      LastIndexSkips(s, t[..|t| - 1], c);
    }
  }

  lemma LastSlashOfJoined(a: string, b: string)
    requires NoSlash(b)
    ensures LastIndex(a + "/" + b, '/') == |a|
  {
    var head := a + "/";
    LastIndexSkips(head, b, '/');
    assert head[|head| - 1] == '/';
  }

  /** An output file lies directly in the frames directory: `dirname` and
      `basename` take the joined path apart again. */
  lemma OutputPathSplits(input: string, name: string)
    requires name != [] && NoSlash(name)
    ensures OutputPath(input, name) == FramesDir(input) + "/" + name
    ensures Basename(OutputPath(input, name)) == name
    ensures Dirname(OutputPath(input, name)) == FramesDir(input)
  {
    var d := FramesDir(input);
    FramesDirEndsWithSuffix(input);
    assert d[|d| - 1] == 's';
    JoinPlain(d, name);
    var p := d + "/" + name;
    LastSlashOfJoined(d, name);
    assert p[|d| + 1..] == name;
    var head := p[..|d| + 1];
    assert head == d + "/";
    assert head[|d| - 1] == 's';
    assert StripTrailingSlashes(head[..|d|]) == d;
  }

  lemma JoinEndsWith(a: string, b: string)
    requires b != [] && b[0] != '/'
    ensures EndsWith(Join(a, b), b)
  {
    if a == [] || a[|a| - 1] == '/' {
      assert (a + b)[|a|..] == b;
    } else {
      assert (a + "/" + b)[|a| + 1..] == b;
    }
  }

  /** The stem is part of the final component, so it holds no separator. */
  lemma StemNoSlash(input: string)
    ensures NoSlash(Stem(input))
  {
    var b := Basename(input);
    var stem := Splitext(b).0;
    assert stem == b[..|stem|];
  }

  /** The frames directory's own name is `<stem>_frames`. */
  lemma FramesDirEndsWithSuffix(input: string)
    ensures EndsWith(FramesDir(input), Stem(input) + "_frames")
  {
    var leaf := Stem(input) + "_frames";
    StemNoSlash(input);
    assert leaf[0] != '/';
    JoinEndsWith(Dirname(input), leaf);
  }

  /** `dirname` never leaves a trailing separator, except on a root made of
      separators only. */
  lemma DirnameShape(p: string)
    ensures var d := Dirname(p); d == [] || AllSlashes(d) || d[|d| - 1] != '/'
  {
  }

  /** `dirname` undoes a join with a single component. */
  lemma DirnameOfJoin(dir: string, leaf: string)
    requires dir == [] || AllSlashes(dir) || dir[|dir| - 1] != '/'
    requires leaf != [] && NoSlash(leaf)
    ensures Dirname(Join(dir, leaf)) == dir
  {
    if dir == [] {
      assert Join(dir, leaf) == leaf;
      assert LastIndex(leaf, '/') == -1;
    } else if dir[|dir| - 1] == '/' {
      var p := dir + leaf;
      assert p == dir[..|dir| - 1] + "/" + leaf;
      LastSlashOfJoined(dir[..|dir| - 1], leaf);
      assert p[..|dir|] == dir;
    } else {
      var p := dir + "/" + leaf;
      LastSlashOfJoined(dir, leaf);
      var head := p[..|dir| + 1];
      assert head == dir + "/";
      assert head[|dir| - 1] != '/';
      assert head[..|dir|] == dir;
    }
  }

  /** Two strings without a separator join into one without a separator. */
  lemma NoSlashConcat(x: string, y: string)
    requires NoSlash(x) && NoSlash(y)
    ensures NoSlash(x + y)
  {
    forall i | 0 <= i < |x + y| ensures (x + y)[i] != '/' {
      if i < |x| {
        assert (x + y)[i] == x[i];
      } else {
        assert (x + y)[i] == y[i - |x|];
      }
    }
  }

  /** The frames directory's name holds no separator. */
  lemma LeafNoSlash(input: string)
    ensures NoSlash(Stem(input) + "_frames")
  {
    var suffix := "_frames";
    assert '/' !in suffix;
    forall i | 0 <= i < |suffix| ensures suffix[i] != '/' {
      assert suffix[i] in suffix;
    }
    StemNoSlash(input);
    NoSlashConcat(Stem(input), suffix);
  }

  /** The frames directory is a direct child of the input's directory. */
  lemma FramesDirBesideInput(input: string)
    ensures Dirname(FramesDir(input)) == Dirname(input)
  {
    LeafNoSlash(input);
    DirnameShape(input);
    DirnameOfJoin(Dirname(input), Stem(input) + "_frames");
  }
}

=== FILE: player.dfy ===
/** The editing session `VideoPlayer` keeps: the open capture, the segment,
    crop and resize settings, the time slider, the playback flag and the
    `is_processing` guard, with the handlers that change them — loading a
    video, the segment editor, the time slider, one playback tick, and
    saving. Qt's slider is modelled as far as the player relies on it: a
    value change runs `slider_value_changed` before the call that caused
    it returns. Other widgets, the timer and message boxes are not
    modelled; a handler's message box is reported as a `Notice`. */
module Player {
  import opened Wrappers
  import opened Geometry
  import opened Frames
  import opened Export
  import Paths
  import Segment

  /** An open `cv2.VideoCapture`. Reading frame `i` yields `video[i]`
      (`None`: the frame cannot be decoded); reads past the end fail. `pos`
      is the index the next read returns; `frameSize` and `frameCount` are
      what the capture reports for its width, height and frame count. */
  datatype Capture = Capture(video: seq<Option<Frame>>, pos: nat, frameSize: Size, frameCount: int)

  /** `cap.set(CAP_PROP_POS_FRAMES, i)`; a negative index is taken as 0. */
  function Seek(c: Capture, i: int): (c': Capture)
    ensures c'.video == c.video && c'.frameSize == c.frameSize && c'.frameCount == c.frameCount
    ensures i >= 0 ==> c'.pos == i
  {
    c.(pos := if i < 0 then 0 else i)
  }

  /** Frame `i` exists and decodes. */
  predicate Decodable(c: Capture, i: int) {
    0 <= i < |c.video| && c.video[i].Some?
  }

  /** `cap.read()`: a successful read moves on by one frame, a failed one
      stays where it is. */
  function Read(c: Capture): (Option<Frame>, Capture) {
    if Decodable(c, c.pos) then (c.video[c.pos], c.(pos := c.pos + 1))
    else (None, c)
  }

  /** The same capture, possibly at another position. */
  predicate SameVideo(c: Capture, c': Capture) {
    c' == c.(pos := c'.pos)
  }

  /** The frames consecutive reads return from index `i` until the first
      failure. */
  function StreamFrom(video: seq<Option<Frame>>, i: nat): (s: seq<Frame>)
    ensures s == [] || i + |s| <= |video|
    ensures forall k :: 0 <= k < |s| ==> video[i + k] == Some(s[k])
    ensures i + |s| >= |video| || video[i + |s|].None?
    decreases |video| - i
  {
    if i < |video| && video[i].Some? then [video[i].value] + StreamFrom(video, i + 1) else []
  }

  /** Every decodable frame is well formed and has the reported size. */
  predicate CaptureValid(c: Capture) {
    && c.frameSize.width >= 0 && c.frameSize.height >= 0
    && forall i :: 0 <= i < |c.video| && c.video[i].Some? ==>
         WellFormed(c.video[i].value) && Dims(c.video[i].value) == c.frameSize
  }

  /** What a handler showed in its message box, if anything. */
  datatype Notice = Quiet | Saved | NotLoaded | Busy | MissingFile | UnsupportedFormat
                  | OpenFailed | SaveFailed

  // ---------------------------------------------------------------------
  // The time slider

  /** A `QSlider`'s range and value. */
  datatype Slider = Slider(minimum: int, maximum: int, value: int)

  /** Qt keeps the value inside the range, and so the range not empty. */
  predicate SliderValid(sl: Slider) {
    sl.minimum <= sl.value <= sl.maximum
  }

  /** The value `setValue(v)` stores: `v` bounded to the range. */
  function Bound(sl: Slider, v: int): (b: int)
    ensures sl.minimum <= sl.maximum ==> sl.minimum <= b <= sl.maximum
    ensures sl.minimum <= v <= sl.maximum ==> b == v
    ensures v < sl.minimum ==> b == sl.minimum
    ensures sl.minimum <= sl.maximum < v ==> b == sl.maximum
  {
    Max(sl.minimum, Min(sl.maximum, v))
  }

  datatype Session = Session(
    capture: Option<Capture>,
    inputFile: string,
    totalFrames: int,
    segmentBegin: int,
    segmentEnd: int,
    currentFrame: Option<Frame>,
    currentFrameNumber: int,
    displayed: Option<Frame>,
    timeSlider: Slider,
    playing: bool,
    processing: bool,
    clip: Option<Rect>,
    resize: Option<Size>,
    segmentWidget: Segment.SegmentWidget)

  /** What `__init__` leaves: nothing loaded or shown, empty segment fields,
      sliders on Qt's default range `[0, 99]` at 0. */
  function NewSession(): Session {
    Session(None, "", 0, 0, 0, None, 0, None, Slider(0, 99, 0), false, false, None, None,
            Segment.SegmentWidget("", "", 0, 0, 99))
  }

  /** The facts the environment guarantees: a well-formed capture and frame,
      a resize target from the spin boxes, a segment range that is not
      negative, a time slider value inside its range. */
  predicate Valid(s: Session) {
    && (s.capture.Some? ==> CaptureValid(s.capture.value))
    && (s.currentFrame.Some? ==> WellFormed(s.currentFrame.value))
    && (s.resize.Some? ==> PositiveSize(s.resize.value))
    && s.segmentWidget.maximum >= 0
    && SliderValid(s.timeSlider)
  }

  /** Only the capture position and the current and displayed frames differ. */
  predicate OnlyPlaybackChanges(s: Session, s': Session) {
    && s' == s.(capture := s'.capture, currentFrame := s'.currentFrame,
                currentFrameNumber := s'.currentFrameNumber, displayed := s'.displayed)
    && (s'.capture.Some? <==> s.capture.Some?)
    && (s.capture.Some? ==> SameVideo(s.capture.value, s'.capture.value))
  }

  /** What `slider_value_changed(value)` leaves. With a capture, it seeks to
      `value` and reads: a frame that decodes becomes the current frame,
      numbered `value`, and is displayed, and the position is one past it;
      otherwise only the seek happened. Without a capture nothing changes. */
  predicate ShowsSliderFrame(s: Session, value: int, s': Session) {
    && OnlyPlaybackChanges(s, s')
    && (s.capture.None? ==> s' == s)
    && (s.capture.Some? ==>
         var c := s.capture.value;
         var i := Seek(c, value).pos;
         if Decodable(c, i) then
           && s'.capture.value.pos == i + 1
           && s'.currentFrame == c.video[i] && s'.currentFrameNumber == value
           && s'.displayed == c.video[i]
         else s' == s.(capture := Some(Seek(c, value))))
  }

  /** `slider_value_changed`, which Qt runs on every change of the time
      slider's value, the player's own `setValue` calls included. */
  function SliderValueChanged(s: Session, value: int): (s': Session)
    ensures ShowsSliderFrame(s, value, s')
  {
    if s.capture.None? then s
    else
      var (frame, c) := Read(Seek(s.capture.value, value));
      if frame.Some? then
        s.(capture := Some(c), currentFrame := frame, currentFrameNumber := value, displayed := frame)
      else s.(capture := Some(c))
  }

  /** `time_slider.setValue(v)`: the value is bounded to the range and, if
      that changes it, the change handler runs with the new value. */
  function SetSliderValue(s: Session, v: int): (s': Session)
    ensures s'.timeSlider == s.timeSlider.(value := Bound(s.timeSlider, v))
    ensures s.timeSlider.minimum <= s.timeSlider.maximum ==> SliderValid(s'.timeSlider)
    ensures Bound(s.timeSlider, v) == s.timeSlider.value ==> s' == s
    ensures Bound(s.timeSlider, v) != s.timeSlider.value ==>
      ShowsSliderFrame(s.(timeSlider := s'.timeSlider), s'.timeSlider.value, s')
  {
    var b := Bound(s.timeSlider, v);
    if b == s.timeSlider.value then s
    else SliderValueChanged(s.(timeSlider := s.timeSlider.(value := b)), b)
  }

  /** `time_slider.setRange(lo, hi)`: the maximum is raised to `lo` if it
      is below it; when the range changed, the old value is bounded to the
      new range through `setValue`. */
  function SetSliderRange(s: Session, lo: int, hi: int): (s': Session)
    ensures s'.timeSlider.minimum == lo && s'.timeSlider.maximum == Max(lo, hi)
    ensures SliderValid(s.timeSlider) ==> SliderValid(s'.timeSlider)
    ensures SliderValid(s.timeSlider) ==> s'.timeSlider.value == Bound(s'.timeSlider, s.timeSlider.value)
    ensures s'.timeSlider.value == s.timeSlider.value ==> s' == s.(timeSlider := s'.timeSlider)
    ensures s'.timeSlider.value != s.timeSlider.value ==>
      ShowsSliderFrame(s.(timeSlider := s'.timeSlider), s'.timeSlider.value, s')
  {
    var hi' := Max(lo, hi);
    if lo == s.timeSlider.minimum && hi' == s.timeSlider.maximum then s
    else SetSliderValue(s.(timeSlider := Slider(lo, hi', s.timeSlider.value)), s.timeSlider.value)
  }

  /** `time_slider.setMaximum(m)`: the minimum follows `m` down if it is
      above it. */
  function SetSliderMaximum(s: Session, m: int): (s': Session)
    ensures s'.timeSlider.maximum == m && s'.timeSlider.minimum == Min(s.timeSlider.minimum, m)
    ensures SliderValid(s.timeSlider) ==> s'.timeSlider.value == Bound(s'.timeSlider, s.timeSlider.value)
    ensures SliderValid(s.timeSlider) ==> SliderValid(s'.timeSlider)
    ensures s'.timeSlider.value == s.timeSlider.value ==> s' == s.(timeSlider := s'.timeSlider)
    ensures s'.timeSlider.value != s.timeSlider.value ==>
      ShowsSliderFrame(s.(timeSlider := s'.timeSlider), s'.timeSlider.value, s')
  {
    SetSliderRange(s, Min(s.timeSlider.minimum, m), m)
  }

  /** `time_slider_clicked(value)`: the slider is set to the clicked value
      (bounded), then the capture is sought to `value` itself and read.
      Whatever the bound did, a frame `value` that decodes ends up current,
      numbered `value`, and displayed. */
  function TimeSliderClick(s: Session, value: int): (s': Session)
    ensures s'.timeSlider == s.timeSlider.(value := Bound(s.timeSlider, value))
    ensures OnlyPlaybackChanges(s.(timeSlider := s'.timeSlider), s')
    ensures s.capture.Some? && Decodable(s.capture.value, Seek(s.capture.value, value).pos) ==>
      var i := Seek(s.capture.value, value).pos;
      && s'.currentFrame == s.capture.value.video[i] && s'.currentFrameNumber == value
      && s'.displayed == s.capture.value.video[i] && s'.capture.value.pos == i + 1
  {
    SliderValueChanged(SetSliderValue(s, value), value)
  }

  // ---------------------------------------------------------------------
  // Loading

  /** The `try` block of `load_video` once capture `c` has opened, through
      the first line of `play_video`: the capture starts at frame 0; the
      slider's maximum becomes the last frame index, which may move the
      slider and so seek and read; the whole video becomes the segment and
      the playing flag is set. The crop and resize settings are kept. */
  function StartVideo(s: Session, path: string, c: Capture): (s': Session)
    ensures var v := s'.timeSlider.value;
      && s'.capture.Some? && SameVideo(c, s'.capture.value) && s'.inputFile == path
      && s'.totalFrames == c.frameCount
      && s'.segmentBegin == 0 && s'.segmentEnd == c.frameCount
      && Segment.Selection(s'.segmentWidget) == Some((0, c.frameCount))
      && s'.playing && s'.clip == s.clip && s'.resize == s.resize && s'.processing == s.processing
      && s'.timeSlider.maximum == c.frameCount - 1
      && s'.timeSlider.minimum == Min(s.timeSlider.minimum, c.frameCount - 1)
      && (SliderValid(s.timeSlider) ==>
            SliderValid(s'.timeSlider) && v == Bound(s'.timeSlider, s.timeSlider.value))
      && (v == s.timeSlider.value ==>
            && s'.capture.value.pos == 0 && s'.currentFrame == s.currentFrame
            && s'.currentFrameNumber == s.currentFrameNumber && s'.displayed == s.displayed)
      && (v != s.timeSlider.value && Decodable(c, Seek(c, v).pos) ==>
            && s'.currentFrame == c.video[Seek(c, v).pos] && s'.currentFrameNumber == v
            && s'.capture.value.pos == Seek(c, v).pos + 1)
  {
    var total := c.frameCount;
    var started := s.(capture := Some(c.(pos := 0)), inputFile := path, totalFrames := total);
    var ranged := SetSliderMaximum(started, total - 1);
    ranged.(segmentBegin := 0, segmentEnd := total,
            segmentWidget := Segment.SetRange(total), playing := true)
  }

  /** `load_video(path)`. `fileExists` is the file-system check, `loaded` the
      capture `cv2.VideoCapture` yields, `None` if it does not open, and
      `fpsUsable` says that the capture's reported frame rate is neither 0
      nor NaN, so that `play_video` can compute the timer interval
      `int(1000 / fps)`. When it cannot, the handler's `except` drops the
      capture, but everything `StartVideo` wrote stays. */
  function LoadVideo(s: Session, path: string, fileExists: bool, loaded: Option<Capture>,
                     fpsUsable: bool): (r: (Session, Notice))
    ensures s.processing ==> r == (s, Busy)
    ensures !s.processing && !fileExists ==> r == (s, MissingFile)
    ensures !s.processing && fileExists && !Paths.IsVideoFile(path) ==> r == (s, UnsupportedFormat)
    ensures !s.processing && fileExists && Paths.IsVideoFile(path) ==>
      match loaded
      case None => r.1 == OpenFailed && r.0 == s.(capture := None)
      case Some(c) =>
        var s' := r.0;
        var v := s'.timeSlider.value;
        && (fpsUsable ==> r.1 == Quiet && s'.capture.Some? && SameVideo(c, s'.capture.value))
        && (!fpsUsable ==> r.1 == OpenFailed && s'.capture.None?)
        && s'.inputFile == path && s'.totalFrames == c.frameCount
        && s'.segmentBegin == 0 && s'.segmentEnd == c.frameCount
        && Segment.Selection(s'.segmentWidget) == Some((0, c.frameCount))
        && s'.playing && s'.clip == s.clip && s'.resize == s.resize && !s'.processing
        && s'.timeSlider.maximum == c.frameCount - 1
        && s'.timeSlider.minimum == Min(s.timeSlider.minimum, c.frameCount - 1)
        && (SliderValid(s.timeSlider) ==>
              SliderValid(s'.timeSlider) && v == Bound(s'.timeSlider, s.timeSlider.value))
        && (v == s.timeSlider.value ==>
              && (fpsUsable ==> s'.capture.value.pos == 0) && s'.currentFrame == s.currentFrame
              && s'.currentFrameNumber == s.currentFrameNumber && s'.displayed == s.displayed)
        && (v != s.timeSlider.value && Decodable(c, Seek(c, v).pos) ==>
              && s'.currentFrame == c.video[Seek(c, v).pos] && s'.currentFrameNumber == v
              && (fpsUsable ==> s'.capture.value.pos == Seek(c, v).pos + 1))
  {
    if s.processing then (s, Busy)
    else if !fileExists then (s, MissingFile)
    else if !Paths.IsVideoFile(path) then (s, UnsupportedFormat)
    else match loaded
      case None => (s.(capture := None), OpenFailed)
      case Some(c) =>
        var started := StartVideo(s, path, c);
        if fpsUsable then (started, Quiet) else (started.(capture := None), OpenFailed)
  }

  // ---------------------------------------------------------------------
  // Segment

  /** `toggle_segment_mode`: with a video loaded, the segment editor is reset
      to the whole video and playback pauses. */
  function EnterSegmentMode(s: Session): (s': Session)
    ensures s.capture.None? ==> s' == s
    ensures s.capture.Some? ==>
      && !s'.playing && s'.segmentWidget.maximum >= 0
      && Segment.Selection(s'.segmentWidget) == Some((0, s.totalFrames))
      && s' == s.(segmentWidget := s'.segmentWidget, playing := false)
  {
    if s.capture.None? then s
    else s.(segmentWidget := Segment.SetRange(s.totalFrames), playing := false)
  }

  /** `update_preview_frame(n)`: the segment editor shows frame `n` if it
      decodes; the current frame and its number stay as they are. */
  function PreviewFrame(s: Session, n: int): (s': Session)
    ensures s.capture.None? ==> s' == s
    ensures s.capture.Some? ==>
      var c := s.capture.value;
      var i := Seek(c, n).pos;
      && s'.capture.Some? && SameVideo(c, s'.capture.value)
      && s' == s.(capture := s'.capture, displayed := s'.displayed)
      && (Decodable(c, i) ==> s'.capture.value.pos == i + 1 && s'.displayed == c.video[i])
      && (!Decodable(c, i) ==> s'.capture.value.pos == i && s'.displayed == s.displayed)
  {
    if s.capture.None? then s
    else
      var (frame, c) := Read(Seek(s.capture.value, n));
      if frame.Some? then s.(capture := Some(c), displayed := frame)
      else s.(capture := Some(c))
  }

  /** A segment-editor handler's result: its fields, then the preview. */
  function SegmentEdited(s: Session, h: Segment.Handled): Session {
    var edited := s.(segmentWidget := h.widget);
    if h.preview.Some? then PreviewFrame(edited, h.preview.value) else edited
  }

  /** `confirm_segment(begin, end)`: stores both values as given, with no
      check; narrows the time slider to `[begin, end]` and sets it to
      `begin`, which may show frame `begin` through the slider's handler;
      then seeks to `begin` and plays. Without a capture the seek raises
      and playback does not start. */
  function ConfirmSegment(s: Session, begin: int, end: int): (s': Session)
    ensures s'.segmentBegin == begin && s'.segmentEnd == end
    ensures s'.timeSlider == Slider(begin, Max(begin, end), begin)
    ensures s'.capture.Some? <==> s.capture.Some?
    ensures s.capture.Some? ==> s'.capture == Some(Seek(s.capture.value, begin)) && s'.playing
    ensures s.capture.None? ==> s'.playing == s.playing
    ensures s.timeSlider.value == begin ==>
      && s'.currentFrame == s.currentFrame && s'.currentFrameNumber == s.currentFrameNumber
      && s'.displayed == s.displayed
    ensures s.capture.Some? && s.timeSlider.value != begin
            && Decodable(s.capture.value, Seek(s.capture.value, begin).pos) ==>
      && s'.currentFrame == s.capture.value.video[Seek(s.capture.value, begin).pos]
      && s'.currentFrameNumber == begin
    ensures s'.clip == s.clip && s'.resize == s.resize && s'.totalFrames == s.totalFrames
    ensures s'.inputFile == s.inputFile && s'.segmentWidget == s.segmentWidget
    ensures s'.processing == s.processing
  {
    var stored := s.(segmentBegin := begin, segmentEnd := end);
    var moved := SetSliderValue(SetSliderRange(stored, begin, end), begin);
    NarrowSlider(stored, begin, end);
    if moved.capture.None? then moved
    else moved.(capture := Some(Seek(moved.capture.value, begin)), playing := true)
  }

  /** The slider half of `confirm_segment`: narrowed to `[begin, end]` and
      set to `begin`, it ends at `begin`, and it has shown frame `begin`
      unless it was already there. */
  lemma NarrowSlider(s: Session, begin: int, end: int)
    ensures var m := SetSliderValue(SetSliderRange(s, begin, end), begin);
      && m.timeSlider == Slider(begin, Max(begin, end), begin)
      && OnlyPlaybackChanges(s.(timeSlider := m.timeSlider), m)
      && (s.timeSlider.value == begin ==> m == s.(timeSlider := m.timeSlider))
      && (s.capture.Some? && s.timeSlider.value != begin
          && Decodable(s.capture.value, Seek(s.capture.value, begin).pos) ==>
            && m.currentFrame == s.capture.value.video[Seek(s.capture.value, begin).pos]
            && m.currentFrameNumber == begin)
  {
    var r := SetSliderRange(s, begin, end);
    var m := SetSliderValue(r, begin);
    assert r.timeSlider.minimum == begin;
    if r.timeSlider.value == s.timeSlider.value {
      assert r == s.(timeSlider := r.timeSlider);
    } else {
      assert ShowsSliderFrame(s.(timeSlider := r.timeSlider), r.timeSlider.value, r);
    }
    if m.timeSlider.value != r.timeSlider.value {
      assert ShowsSliderFrame(r.(timeSlider := m.timeSlider), begin, m);
    } else {
      assert m == r;
    }
  }

  /** The Confirm button: reads both fields and confirms them; an unreadable
      field raises and nothing changes. */
  function ConfirmSelection(s: Session): (s': Session)
    ensures Segment.Valid(s.segmentWidget) ==>
      0 <= s'.segmentBegin < s'.segmentEnd <= s.segmentWidget.maximum
    ensures Segment.Selection(s.segmentWidget).None? ==> s' == s
  {
    match Segment.Selection(s.segmentWidget)
    case None => s
    case Some(sel) => ConfirmSegment(s, sel.0, sel.1)
  }

  /** `cancel_segment`: the time slider spans the whole video again and is
      set to the current frame number; the segment returns to the whole
      video. */
  function CancelSegment(s: Session): (s': Session)
    ensures s'.segmentBegin == 0 && s'.segmentEnd == s.totalFrames
    ensures s'.timeSlider.minimum == 0 && s'.timeSlider.maximum == Max(0, s.totalFrames)
    ensures SliderValid(s'.timeSlider)
    ensures OnlyPlaybackChanges(s.(segmentBegin := 0, segmentEnd := s.totalFrames,
                                   timeSlider := s'.timeSlider), s')
    ensures 0 <= s.currentFrameNumber <= s.totalFrames && s.timeSlider.value == s.currentFrameNumber ==>
      s' == s.(segmentBegin := 0, segmentEnd := s.totalFrames,
               timeSlider := Slider(0, s.totalFrames, s.currentFrameNumber))
  {
    var ranged := SetSliderRange(s, 0, s.totalFrames);
    var moved := SetSliderValue(ranged, ranged.currentFrameNumber);
    moved.(segmentBegin := 0, segmentEnd := s.totalFrames)
  }

  // ---------------------------------------------------------------------
  // Playback

  /** `toggle_play`. */
  function TogglePlay(s: Session): (s': Session)
    ensures s'.playing != s.playing
    ensures s' == s.(playing := s'.playing)
  {
    if s.playing then s.(playing := false) else s.(playing := true)
  }

  lemma TogglePlayTwice(s: Session)
    ensures TogglePlay(TogglePlay(s)) == s
  {
  }

  /** `update_frame`, one timer tick. The frame at the position is read and
      numbered with the position after the read; `setValue` with that
      number runs the slider's handler, which seeks and reads again,
      replacing the current frame and number with the slider's (bounded)
      frame. If the current number has then reached the segment end,
      playback pauses, the capture is sought back to the segment start and
      the slider set to it, which may read once more. The frame read first
      is the one displayed. A failed read only rewinds to the segment start. */
  function UpdateFrame(s: Session): (s': Session)
    ensures s.capture.None? ==> s' == s
    ensures s' == s.(capture := s'.capture, currentFrame := s'.currentFrame,
                     currentFrameNumber := s'.currentFrameNumber, displayed := s'.displayed,
                     timeSlider := s'.timeSlider, playing := s'.playing)
    ensures s'.capture.Some? <==> s.capture.Some?
    ensures s.capture.Some? ==> SameVideo(s.capture.value, s'.capture.value)
    ensures s'.playing ==> s.playing
    ensures s'.timeSlider.minimum == s.timeSlider.minimum && s'.timeSlider.maximum == s.timeSlider.maximum
    ensures SliderValid(s.timeSlider) ==> SliderValid(s'.timeSlider)
  {
    if s.capture.None? then s
    else
      var (frame, c) := Read(s.capture.value);
      if frame.None? then s.(capture := Some(Seek(c, s.segmentBegin)))
      else
        var read := s.(capture := Some(c), currentFrame := frame, currentFrameNumber := c.pos);
        StopAtEnd(SetSliderValue(read, c.pos)).(displayed := frame)
  }

  /** The end check of `update_frame`: once the current frame number has
      reached the segment end, pause, seek to the segment start, number the
      current frame with it, and set the slider to it. */
  function StopAtEnd(s: Session): (s': Session)
    ensures s' == s.(capture := s'.capture, currentFrame := s'.currentFrame,
                     currentFrameNumber := s'.currentFrameNumber, displayed := s'.displayed,
                     timeSlider := s'.timeSlider, playing := s'.playing)
    ensures s'.capture.Some? <==> s.capture.Some?
    ensures s.capture.Some? ==> SameVideo(s.capture.value, s'.capture.value)
    ensures s'.playing == (s.playing && s.currentFrameNumber < s.segmentEnd)
    ensures s'.timeSlider.minimum == s.timeSlider.minimum && s'.timeSlider.maximum == s.timeSlider.maximum
    ensures SliderValid(s.timeSlider) ==> SliderValid(s'.timeSlider)
  {
    if s.currentFrameNumber >= s.segmentEnd then
      SetSliderValue(s.(playing := false, capture := if s.capture.Some? then Some(Seek(s.capture.value, s.segmentBegin)) else None,
                        currentFrameNumber := s.segmentBegin), s.segmentBegin)
    else s
  }

  /** A failed read rewinds to the segment start and changes nothing else. */
  lemma TickRewindsOnFailedRead(s: Session)
    requires s.capture.Some? && !Decodable(s.capture.value, s.capture.value.pos)
    ensures UpdateFrame(s) == s.(capture := Some(Seek(s.capture.value, s.segmentBegin)))
  {
  }

  /** Inside the slider's range a tick reads two frames: frame `p` is
      displayed while frame `p + 1` becomes the current frame, and the next
      tick starts at `p + 2`. */
  lemma TickReadsTwoFrames(s: Session)
    requires s.capture.Some?
    requires Decodable(s.capture.value, s.capture.value.pos)
    requires Decodable(s.capture.value, s.capture.value.pos + 1)
    requires var p := s.capture.value.pos;
      s.timeSlider.minimum <= p + 1 <= s.timeSlider.maximum && s.timeSlider.value != p + 1
      && p + 1 < s.segmentEnd
    ensures var s' := UpdateFrame(s); var c := s.capture.value;
      && s'.capture.value.pos == c.pos + 2
      && s'.displayed == c.video[c.pos] && s'.currentFrame == c.video[c.pos + 1]
      && s'.currentFrameNumber == c.pos + 1 && s'.playing == s.playing
      && s'.timeSlider.value == c.pos + 1
  {
  }

  /** A tick that pauses leaves the slider, the current frame number and
      the position at the segment start (one past it when that frame was
      read again), provided the start lies in the slider's range. */
  lemma PauseRewindsToBegin(s: Session)
    requires s.capture.Some? && s.playing && 0 <= s.segmentBegin
    requires s.timeSlider.minimum <= s.segmentBegin <= s.timeSlider.maximum
    ensures var s' := UpdateFrame(s);
      !s'.playing ==>
        && s'.timeSlider.value == s.segmentBegin && s'.currentFrameNumber == s.segmentBegin
        && s.segmentBegin <= s'.capture.value.pos <= s.segmentBegin + 1
  {
  }

  /** While the slider's maximum lies below the segment end — the whole
      video after loading, where the maximum is the last frame index and
      the end the frame count — a tick whose slider read succeeds numbers
      the frame with a value of the slider and so never pauses. */
  lemma NoPauseBelowSliderMaximum(s: Session)
    requires s.capture.Some? && s.playing
    requires SliderValid(s.timeSlider) && s.timeSlider.maximum < s.segmentEnd
    requires Decodable(s.capture.value, s.capture.value.pos)
    requires var b := Bound(s.timeSlider, s.capture.value.pos + 1);
      b != s.timeSlider.value && Decodable(s.capture.value, Seek(s.capture.value, b).pos)
    ensures UpdateFrame(s).playing
  {
  }

  /** `ticks` successive timer ticks. */
  function Tick(s: Session, ticks: nat): (s': Session)
    ensures s'.segmentBegin == s.segmentBegin && s'.segmentEnd == s.segmentEnd
    ensures s'.capture.Some? <==> s.capture.Some?
    ensures s.capture.Some? ==> SameVideo(s.capture.value, s'.capture.value)
    decreases ticks
  {
    if ticks == 0 then s else Tick(UpdateFrame(s), ticks - 1)
  }

  /** Five decodable frames, segment `[0, 4)` confirmed: after two ticks the
      position is already 4, and the third tick displays frame 4, outside
      the segment, pauses, and leaves the position at 1 rather than 0. */
  lemma PlaybackLeavesSegment(s: Session)
    requires s.capture.Some? && |s.capture.value.video| == 5
    requires forall i :: 0 <= i < 5 ==> s.capture.value.video[i].Some?
    ensures var s0 := ConfirmSegment(s, 0, 4);
      && Tick(s0, 2).capture.value.pos == 4 && Tick(s0, 2).playing
      && Tick(s0, 3).displayed == s.capture.value.video[4]
      && 4 >= Tick(s0, 3).segmentEnd
      && !Tick(s0, 3).playing && Tick(s0, 3).capture.value.pos == 1
  {
    var v := s.capture.value.video;
    var s0 := ConfirmSegment(s, 0, 4);
    assert s0.timeSlider == Slider(0, 4, 0) && s0.capture.value.pos == 0 && s0.playing;
    var s1 := UpdateFrame(s0);
    assert Decodable(s0.capture.value, 0) && Decodable(s0.capture.value, 1);
    TickReadsTwoFrames(s0);
    assert s1.capture.value.pos == 2 && s1.timeSlider.value == 1 && s1.playing;
    var s2 := UpdateFrame(s1);
    assert Decodable(s1.capture.value, 2) && Decodable(s1.capture.value, 3);
    TickReadsTwoFrames(s1);
    assert s2.capture.value.pos == 4 && s2.timeSlider.value == 3 && s2.playing;
    assert Tick(s0, 2) == s2 by {
      assert Tick(s0, 2) == Tick(s1, 1) == Tick(s2, 0);
    }
    var s3 := UpdateFrame(s2);
    assert Decodable(s2.capture.value, 4) && Decodable(s2.capture.value, 0);
    assert s3.displayed == v[4] && !s3.playing && s3.capture.value.pos == 1;
    assert Tick(s0, 3) == s3 by {
      assert Tick(s0, 3) == Tick(s1, 2) == Tick(s2, 1) == Tick(s3, 0);
    }
  }

  /** `update_frame` with the slider moved quietly (its signals blocked),
      so that each tick reads one frame: the frame read is current and
      displayed, numbered with the position after it; on reaching the
      segment end playback pauses and rewinds to the segment start; a failed
      read rewinds without pausing. */
  function UpdateFrameQuiet(s: Session): (s': Session)
    ensures s.capture.None? ==> s' == s
    ensures s'.segmentBegin == s.segmentBegin && s'.segmentEnd == s.segmentEnd
    ensures s'.capture.Some? <==> s.capture.Some?
    ensures s.capture.Some? && s.segmentBegin >= 0 ==>
      var c := s.capture.value;
      var p := c.pos;
      && SameVideo(c, s'.capture.value)
      && (|| (Decodable(c, p) && p + 1 < s.segmentEnd && s'.playing == s.playing
              && s'.capture.value.pos == p + 1 && s'.currentFrameNumber == p + 1
              && s'.currentFrame == c.video[p] && s'.displayed == c.video[p])
          || (Decodable(c, p) && p + 1 >= s.segmentEnd && !s'.playing
              && s'.capture.value.pos == s.segmentBegin && s'.currentFrameNumber == s.segmentBegin
              && s'.displayed == c.video[p])
          || (!Decodable(c, p) && s'.playing == s.playing
              && s'.capture.value.pos == s.segmentBegin))
  {
    if s.capture.None? then s
    else
      var (frame, c) := Read(s.capture.value);
      if frame.None? then s.(capture := Some(Seek(c, s.segmentBegin)))
      else
        var read := s.(capture := Some(c), currentFrame := frame, currentFrameNumber := c.pos,
                       timeSlider := s.timeSlider.(value := Bound(s.timeSlider, c.pos)), displayed := frame);
        if c.pos >= s.segmentEnd then
          read.(playing := false, capture := Some(Seek(c, s.segmentBegin)),
                currentFrameNumber := s.segmentBegin,
                timeSlider := s.timeSlider.(value := Bound(s.timeSlider, s.segmentBegin)))
        else read
  }

  /** `ticks` successive quiet ticks. */
  function TickQuiet(s: Session, ticks: nat): (s': Session)
    decreases ticks
  {
    if ticks == 0 then s else TickQuiet(UpdateFrameQuiet(s), ticks - 1)
  }

  /** With quiet ticks, playback inside a segment `0 <= begin < end` stays
      in it, tick after tick. */
  lemma {:induction false} PlaybackStaysInSegment(s: Session, ticks: nat)
    requires s.capture.Some? && 0 <= s.segmentBegin < s.segmentEnd
    requires s.segmentBegin <= s.capture.value.pos < s.segmentEnd
    ensures var s' := TickQuiet(s, ticks);
      s'.capture.Some? && s.segmentBegin <= s'.capture.value.pos < s.segmentEnd
    decreases ticks
  {
    if ticks > 0 {
      PlaybackStaysInSegment(UpdateFrameQuiet(s), ticks - 1);
    }
  }

  // ---------------------------------------------------------------------
  // Crop and resize settings

  /** `confirm_clip`: the editor's rectangle becomes the crop; playback resumes. */
  function ConfirmClip(s: Session, r: Rect): (s': Session)
    ensures s'.clip == Some(r) && s'.playing
    ensures s' == s.(clip := s'.clip, playing := s'.playing)
  {
    s.(clip := Some(r), playing := true)
  }

  /** `confirm_resize`: the spin boxes' values (each in `[1, 9999]`) become
      the resize target; playback resumes. */
  function ConfirmResize(s: Session, width: int, height: int): (s': Session)
    requires 1 <= width <= 9999 && 1 <= height <= 9999
    ensures s'.resize == Some(Size(width, height)) && PositiveSize(s'.resize.value) && s'.playing
    ensures s' == s.(resize := s'.resize, playing := s'.playing)
  {
    s.(resize := Some(Size(width, height)), playing := true)
  }

  // ---------------------------------------------------------------------
  // The session as a sequence of user actions

  /** What the user can do to the window, besides saving. Segment-editor
      slider values are taken in the editor's range, as Qt bounds them. */
  datatype Event =
    | Load(path: string, fileExists: bool, loaded: Option<Capture>, fpsUsable: bool)
    | OpenSegmentEditor
    | BeginSliderMoved(value: int)
    | EndSliderMoved(value: int)
    | BeginTyped(text: string)
    | EndTyped(text: string)
    | ConfirmSelectionPressed
    | CancelSelectionPressed
    | TimerFired
    | PlayPressed
    | TimeSliderClicked(value: int)
    | ClipConfirmed(rect: Rect)
    | ResizeConfirmed(width: int, height: int)

  /** What the environment delivers: a capture that opens is well formed, and
      the resize spin boxes hold values in `[1, 9999]`. */
  predicate Possible(ev: Event) {
    match ev
    case Load(_, _, loaded, _) => loaded.Some? ==> CaptureValid(loaded.value)
    case ResizeConfirmed(w, h) => 1 <= w <= 9999 && 1 <= h <= 9999
    case _ => true
  }

  /** A handler that only moves the playback keeps the session valid: a
      frame it makes current comes from the capture. */
  lemma PlaybackKeepsValid(s: Session, value: int, s': Session)
    requires Valid(s) && ShowsSliderFrame(s, value, s')
    ensures Valid(s')
  {
    if s.capture.Some? {
      var c := s.capture.value;
      var i := Seek(c, value).pos;
      if Decodable(c, i) {
        assert WellFormed(c.video[i].value);
      }
    }
  }

  /** Setting the slider's value keeps the session valid. */
  lemma SliderValueKeepsValid(s: Session, v: int)
    requires Valid(s)
    ensures Valid(SetSliderValue(s, v))
  {
    var moved := SetSliderValue(s, v);
    if moved.timeSlider.value != s.timeSlider.value {
      PlaybackKeepsValid(s.(timeSlider := moved.timeSlider), moved.timeSlider.value, moved);
    }
  }

  /** Setting the slider's range keeps the session valid. */
  lemma SliderRangeKeepsValid(s: Session, lo: int, hi: int)
    requires Valid(s)
    ensures Valid(SetSliderRange(s, lo, hi))
  {
    var ranged := SetSliderRange(s, lo, hi);
    if ranged.timeSlider.value != s.timeSlider.value {
      PlaybackKeepsValid(s.(timeSlider := ranged.timeSlider), ranged.timeSlider.value, ranged);
    }
  }

  lemma StartKeepsValid(s: Session, path: string, c: Capture)
    requires Valid(s) && CaptureValid(c)
    ensures Valid(StartVideo(s, path, c))
  {
    var started := s.(capture := Some(c.(pos := 0)), inputFile := path, totalFrames := c.frameCount);
    SliderRangeKeepsValid(started, Min(started.timeSlider.minimum, c.frameCount - 1), c.frameCount - 1);
  }

  lemma LoadKeepsValid(s: Session, path: string, fileExists: bool, loaded: Option<Capture>, fpsUsable: bool)
    requires Valid(s) && (loaded.Some? ==> CaptureValid(loaded.value))
    ensures Valid(LoadVideo(s, path, fileExists, loaded, fpsUsable).0)
  {
    if !s.processing && fileExists && Paths.IsVideoFile(path) && loaded.Some? {
      var started := StartVideo(s, path, loaded.value);
      StartKeepsValid(s, path, loaded.value);
      assert Valid(started.(capture := None));
    }
  }

  lemma SegmentEditKeepsValid(s: Session, h: Segment.Handled)
    requires Valid(s) && h.widget.maximum >= 0
    ensures Valid(SegmentEdited(s, h))
  {
    var edited := s.(segmentWidget := h.widget);
    if h.preview.Some? && s.capture.Some? {
      var c := s.capture.value;
      var i := Seek(c, h.preview.value).pos;
      if Decodable(c, i) {
        assert WellFormed(c.video[i].value);
      }
    }
  }

  lemma ConfirmKeepsValid(s: Session, begin: int, end: int)
    requires Valid(s)
    ensures Valid(ConfirmSegment(s, begin, end))
  {
    var stored := s.(segmentBegin := begin, segmentEnd := end);
    SliderRangeKeepsValid(stored, begin, end);
    SliderValueKeepsValid(SetSliderRange(stored, begin, end), begin);
  }

  lemma CancelKeepsValid(s: Session)
    requires Valid(s)
    ensures Valid(CancelSegment(s))
  {
    SliderRangeKeepsValid(s, 0, s.totalFrames);
    var ranged := SetSliderRange(s, 0, s.totalFrames);
    SliderValueKeepsValid(ranged, ranged.currentFrameNumber);
  }

  lemma StopAtEndKeepsValid(s: Session)
    requires Valid(s)
    ensures Valid(StopAtEnd(s))
  {
    if s.currentFrameNumber >= s.segmentEnd {
      var paused := s.(playing := false, capture := if s.capture.Some? then Some(Seek(s.capture.value, s.segmentBegin)) else None,
                       currentFrameNumber := s.segmentBegin);
      SliderValueKeepsValid(paused, s.segmentBegin);
    }
  }

  lemma TickKeepsValid(s: Session)
    requires Valid(s)
    ensures Valid(UpdateFrame(s))
  {
    if s.capture.Some? {
      var (frame, c) := Read(s.capture.value);
      if frame.Some? {
        assert WellFormed(s.capture.value.video[s.capture.value.pos].value);
        var read := s.(capture := Some(c), currentFrame := frame, currentFrameNumber := c.pos);
        SliderValueKeepsValid(read, c.pos);
        StopAtEndKeepsValid(SetSliderValue(read, c.pos));
      }
    }
  }

  lemma ClickKeepsValid(s: Session, value: int)
    requires Valid(s)
    ensures Valid(TimeSliderClick(s, value))
  {
    SliderValueKeepsValid(s, value);
    var moved := SetSliderValue(s, value);
    PlaybackKeepsValid(moved, value, SliderValueChanged(moved, value));
  }

  /** The session after one event; the timer fires only while playing. */
  function Apply(s: Session, ev: Event): (s': Session)
    requires Valid(s) && Possible(ev)
    ensures Valid(s')
  {
    match ev
    case Load(path, fileExists, loaded, fpsUsable) =>
      LoadKeepsValid(s, path, fileExists, loaded, fpsUsable);
      LoadVideo(s, path, fileExists, loaded, fpsUsable).0
    case OpenSegmentEditor => EnterSegmentMode(s)
    case BeginSliderMoved(v) =>
      var w := s.segmentWidget;
      var h := Segment.BeginFromSlider(w, Segment.SliderValue(v, w.maximum));
      SegmentEditKeepsValid(s, h);
      SegmentEdited(s, h)
    case EndSliderMoved(v) =>
      var w := s.segmentWidget;
      var h := Segment.EndFromSlider(w, Segment.SliderValue(v, w.maximum));
      SegmentEditKeepsValid(s, h);
      SegmentEdited(s, h)
    case BeginTyped(text) =>
      var h := Segment.BeginFromText(s.segmentWidget.(beginText := text));
      SegmentEditKeepsValid(s, h);
      SegmentEdited(s, h)
    case EndTyped(text) =>
      var h := Segment.EndFromText(s.segmentWidget.(endText := text));
      SegmentEditKeepsValid(s, h);
      SegmentEdited(s, h)
    case ConfirmSelectionPressed =>
      var sel := Segment.Selection(s.segmentWidget);
      if sel.Some? then ConfirmKeepsValid(s, sel.value.0, sel.value.1); ConfirmSelection(s)
      else ConfirmSelection(s)
    case CancelSelectionPressed =>
      CancelKeepsValid(s);
      CancelSegment(s)
    case TimerFired =>
      if s.playing then TickKeepsValid(s); UpdateFrame(s) else s
    case PlayPressed => TogglePlay(s)
    case TimeSliderClicked(v) =>
      ClickKeepsValid(s, v);
      TimeSliderClick(s, v)
    case ClipConfirmed(r) => ConfirmClip(s, r)
    case ResizeConfirmed(w, h) => ConfirmResize(s, w, h)
  }

  /** The session after a sequence of events: each one keeps it valid. */
  function ApplyAll(s: Session, events: seq<Event>): (s': Session)
    requires Valid(s)
    requires forall i :: 0 <= i < |events| ==> Possible(events[i])
    ensures Valid(s')
    decreases |events|
  {
    if |events| == 0 then s else ApplyAll(Apply(s, events[0]), events[1..])
  }

  /** Every session reachable from start-up is valid: its time slider value
      lies in the slider's range and its current frame is well formed. */
  lemma ReachableSessionsValid(events: seq<Event>)
    requires forall i :: 0 <= i < |events| ==> Possible(events[i])
    ensures var s := ApplyAll(NewSession(), events);
      && s.timeSlider.minimum <= s.timeSlider.value <= s.timeSlider.maximum
      && (s.currentFrame.Some? ==> WellFormed(s.currentFrame.value))
  {
    assert Valid(NewSession());
  }

  // ---------------------------------------------------------------------
  // Saving

  lemma StreamWellFormed(c: Capture, i: nat)
    requires CaptureValid(c)
    ensures AllWellFormed(StreamFrom(c.video, i))
    ensures forall k :: 0 <= k < |StreamFrom(c.video, i)| ==> Dims(StreamFrom(c.video, i)[k]) == c.frameSize
  {
    var st := StreamFrom(c.video, i);
    forall k | 0 <= k < |st| ensures WellFormed(st[k]) && Dims(st[k]) == c.frameSize {
      assert c.video[i + k] == Some(st[k]);
    }
  }

  /** The frames an export of the current segment reads. */
  function SegmentStream(c: Capture, begin: int): seq<Frame> {
    StreamFrom(c.video, Seek(c, begin).pos)
  }

  /** Common to every save that ran: the guard is clear, the capture holds
      the same video (its position may have moved), nothing else changed. */
  predicate RanSave(s: Session, s': Session) {
    && !s'.processing
    && s.capture.Some? && s'.capture.Some? && SameVideo(s.capture.value, s'.capture.value)
    && s' == s.(processing := false, capture := s'.capture)
  }

  /** The `.jpg`/`.png` branch: one file, the current frame as it is, with
      neither crop nor resize, named after the current frame number. */
  predicate ImageSaved(s: Session, ext: string, s': Session, notice: Notice, outputs: seq<Output>)
    requires s.currentFrame.Some?
  {
    && RanSave(s, s') && s'.capture == s.capture && notice == Saved
    && outputs == [ImageFile(Paths.FramesDir(s.inputFile), FrameFileName(s.currentFrameNumber, ext),
                             s.currentFrame.value)]
  }

  /** The `*.jpg`/`*.png` branch: frame `begin + k` of the segment, cropped
      and resized, in file `<begin + k:06d><ext>`, for every `k` below the
      number of frames read before the segment end or the first failed
      read. A frame the crop empties raises: the files written so far stay
      and the save fails. The capture is left after the last frame read. */
  predicate SequenceSaved(s: Session, ext: string, scale: Scaler, s': Session, notice: Notice,
                          outputs: seq<Output>)
    requires Valid(s) && s.capture.Some? && Resizes(scale)
  {
    var start := Seek(s.capture.value, s.segmentBegin).pos;
    var stream := SegmentStream(s.capture.value, s.segmentBegin);
    StreamWellFormed(s.capture.value, start);
    && RanSave(s, s') && (notice == Saved || notice == SaveFailed)
    && SequenceFiles(outputs, notice == SaveFailed, Paths.FramesDir(s.inputFile), stream,
                     s.segmentBegin, s.segmentEnd, ext, s.clip, s.resize, scale)
    && s'.capture.value.pos == start + |outputs| + (if notice == SaveFailed then 1 else 0)
  }

  /** The video branch: one video `<begin:06d>-<end:06d><ext>`, opened at
      the writer's size, holding the frames the sequence branch would write,
      each of the size the crop and resize give it; a resize that raises
      ends the save with the video holding the frames before it. Nothing is
      written when the writer does not open. */
  predicate VideoSaved(s: Session, ext: string, scale: Scaler, writerOpens: bool, s': Session,
                       notice: Notice, outputs: seq<Output>)
    requires Valid(s) && s.capture.Some? && Resizes(scale)
  {
    var c := s.capture.value;
    var start := Seek(c, s.segmentBegin).pos;
    var stream := SegmentStream(c, s.segmentBegin);
    StreamWellFormed(c, start);
    && RanSave(s, s')
    && if writerOpens then
         && |outputs| == 1 && outputs[0].Video?
         && outputs[0].dir == Paths.FramesDir(s.inputFile)
         && outputs[0].name == VideoFileName(s.segmentBegin, s.segmentEnd, ext)
         && outputs[0].size == WriterSize(c.frameSize, s.clip, s.resize)
         && (notice == Saved || notice == SaveFailed)
         && VideoFrames(outputs[0].frames, notice == Saved, stream, s.segmentBegin, s.segmentEnd,
                        s.clip, s.resize, scale)
         && (forall k :: 0 <= k < |outputs[0].frames| ==>
               Dims(outputs[0].frames[k]) == FrameSize(c.frameSize, s.clip, s.resize))
         && s'.capture.value.pos == start + |outputs[0].frames| + (if notice == Saved then 0 else 1)
       else notice == SaveFailed && outputs == [] && s'.capture == s.capture
  }

  method SaveSequence(s: Session, ext: string, scale: Scaler)
    returns (s': Session, notice: Notice, outputs: seq<Output>)
    requires Valid(s) && s.capture.Some? && Resizes(scale)
    ensures Valid(s')
    ensures SequenceSaved(s, ext, scale, s', notice, outputs)
  {
    var start := Seek(s.capture.value, s.segmentBegin);
    var stream := StreamFrom(start.video, start.pos);
    StreamWellFormed(s.capture.value, start.pos);
    var failed;
    outputs, failed := ExportSequence(Paths.FramesDir(s.inputFile), stream, s.segmentBegin, s.segmentEnd,
                                      ext, s.clip, s.resize, scale);
    var read := |outputs| + (if failed then 1 else 0);
    s' := s.(processing := false, capture := Some(start.(pos := start.pos + read)));
    notice := if failed then SaveFailed else Saved;
    assert stream == SegmentStream(s.capture.value, s.segmentBegin);
    assert CaptureValid(s'.capture.value) by {
      assert s'.capture.value.video == s.capture.value.video;
      assert s'.capture.value.frameSize == s.capture.value.frameSize;
    }
    assert RanSave(s, s');
  }

  method SaveVideo(s: Session, ext: string, scale: Scaler, writerOpens: bool)
    returns (s': Session, notice: Notice, outputs: seq<Output>)
    requires Valid(s) && s.capture.Some? && Resizes(scale)
    ensures Valid(s')
    ensures VideoSaved(s, ext, scale, writerOpens, s', notice, outputs)
  {
    var c := s.capture.value;
    var start := Seek(c, s.segmentBegin);
    var stream := StreamFrom(c.video, start.pos);
    StreamWellFormed(c, start.pos);
    var video, complete := ExportVideo(Paths.FramesDir(s.inputFile),
                                       VideoFileName(s.segmentBegin, s.segmentEnd, ext),
                                       c.frameSize, stream, s.segmentBegin, s.segmentEnd,
                                       s.clip, s.resize, scale, writerOpens);
    if video.None? {
      return s.(processing := false), SaveFailed, [];
    }
    VideoFramesFitWriter(c.frameSize, stream, s.clip, s.resize, scale, video.value.frames);
    var read := |video.value.frames| + (if complete then 0 else 1);
    s' := s.(processing := false, capture := Some(start.(pos := start.pos + read)));
    notice := if complete then Saved else SaveFailed;
    outputs := [video.value];
  }

  /** `save_current` with the selected `format`. Refused without a loaded
      video and current frame, or while another save runs; otherwise the
      format picks the branch, outputs go to `<stem>_frames` beside the
      input, and the guard is clear again afterwards. `scale` stands for
      `cv2.resize`; `writerOpens` says whether `cv2.VideoWriter` opens. */
  method SaveCurrent(s: Session, format: string, scale: Scaler, writerOpens: bool)
    returns (s': Session, notice: Notice, outputs: seq<Output>)
    requires Valid(s) && Resizes(scale)
    ensures Valid(s')
    ensures s.capture.None? || s.currentFrame.None? ==> s' == s && notice == NotLoaded && outputs == []
    ensures s.capture.Some? && s.currentFrame.Some? && s.processing ==>
      s' == s && notice == Busy && outputs == []
    ensures s.capture.Some? && s.currentFrame.Some? && !s.processing ==>
      match PlanExport(format)
      case SingleImage(ext) => ImageSaved(s, ext, s', notice, outputs)
      case ImageSequence(ext) => SequenceSaved(s, ext, scale, s', notice, outputs)
      case VideoFile(ext) => VideoSaved(s, ext, scale, writerOpens, s', notice, outputs)
  {
    if s.capture.None? || s.currentFrame.None? {
      return s, NotLoaded, [];
    }
    if s.processing {
      return s, Busy, [];
    }
    match PlanExport(format)
    case SingleImage(ext) => {
      outputs := [ImageFile(Paths.FramesDir(s.inputFile), FrameFileName(s.currentFrameNumber, ext),
                            s.currentFrame.value)];
      return s, Saved, outputs;
    }
    case ImageSequence(ext) => {
      s', notice, outputs := SaveSequence(s, ext, scale);
    }
    case VideoFile(ext) => {
      s', notice, outputs := SaveVideo(s, ext, scale, writerOpens);
    }
  }
}

=== FILE: segment.dfy ===
/** The segment picker (`SegmentWidget` in main.py): a begin and an end
    field, each a text box plus a slider over `[0, total_frames]`. Every
    handler reads the other field's text, clamps its own value so that
    begin stays below end, writes the result back and previews that frame.

    A handler that runs while another is updating the widget (Qt delivering
    `valueChanged` from inside a handler's own `setValue`) returns at once;
    here that nested delivery simply has no effect. */
module Segment {
  import opened Wrappers
  import opened Decimal

  /** Both sliders share the range `[0, maximum]`. */
  datatype SegmentWidget = SegmentWidget(
    beginText: string,
    endText: string,
    beginSlider: int,
    endSlider: int,
    maximum: int)

  /** A handler's outcome: the widget afterwards and the frame the player
      was asked to preview, if the handler got that far. */
  datatype Handled = Handled(widget: SegmentWidget, preview: Option<int>)

  /** A slider holds its value inside its range (`QSlider.setValue`). */
  function SliderValue(v: int, maximum: int): (r: int)
    requires maximum >= 0
    ensures 0 <= r <= maximum
    ensures 0 <= v <= maximum ==> r == v
  {
    if v < 0 then 0 else if v > maximum then maximum else v
  }

  /** `set_range(total)`: the selection becomes the whole video. A negative
      total leaves the sliders the single position 0. */
  function SetRange(total: int): (w: SegmentWidget)
    ensures w.maximum >= 0
    ensures ReadField(w.beginText) == Some(0) && ReadField(w.endText) == Some(total)
    ensures total >= 0 ==> w.maximum == total && w.beginSlider == 0 && w.endSlider == total
  {
    var m := if total < 0 then 0 else total;
    ShowParses(total);
    SegmentWidget("0", Show(total), SliderValue(0, m), SliderValue(total, m), m)
  }

  // ---------------------------------------------------------------------
  // The clamps

  /** Slider or click on the begin side: `value`, or `end - 1` if it is not
      below `end` — the largest value not above `value` that is below `end`. */
  function BelowEnd(value: int, end: int): (r: int)
    ensures r <= value && r < end
    ensures r == value || r == end - 1
  {
    if value >= end then end - 1 else value
  }

  /** Slider or click on the end side: the smallest value not below `value`
      that is above `begin`. */
  function AboveBegin(value: int, begin: int): (r: int)
    ensures r >= value && r > begin
    ensures r == value || r == begin + 1
  {
    if value <= begin then begin + 1 else value
  }

  /** Typed begin value: below `end` first, then not negative. The second
      step runs after the first, so with `end <= 0` a negative value becomes
      0, which is not below `end`. */
  function BeginInputValue(value: int, end: int): (r: int)
    ensures end >= 1 ==> 0 <= r < end
    ensures value >= end ==> r == end - 1
    ensures end < 1 && value < end ==> r == 0
    ensures 0 <= value < end ==> r == value
  {
    if value >= end then end - 1 else if value < 0 then 0 else value
  }

  /** Typed end value: above `begin` first, then not above the maximum. With
      `begin >= maximum` a large value becomes the maximum, which is not
      above `begin`. */
  function EndInputValue(value: int, begin: int, maximum: int): (r: int)
    ensures begin < maximum ==> begin < r <= maximum
    ensures value <= begin ==> r == begin + 1
    ensures begin >= maximum && value > begin ==> r == maximum
    ensures begin < value <= maximum ==> r == value
  {
    if value <= begin then begin + 1 else if value > maximum then maximum else value
  }

  // ---------------------------------------------------------------------
  // The handlers

  /** `begin_slider_changed(value)` and `begin_slider_clicked(value)`: both
      write the clamped value to the begin field and the slider. If the end
      field does not hold an integer, `int()` raises before anything is
      written and the slider keeps the position the user gave it. */
  function BeginFromSlider(w: SegmentWidget, value: int): (h: Handled)
    requires w.maximum >= 0
    ensures h.widget.endText == w.endText && h.widget.endSlider == w.endSlider
    ensures h.widget.maximum == w.maximum
    ensures h.preview.Some? <==> ReadField(w.endText).Some?
    ensures h.preview.Some? ==>
      var e := ReadField(w.endText).value;
      && h.preview.value < e
      && ReadField(h.widget.beginText) == h.preview
      && (value < e ==> h.preview.value == value)
  {
    match ReadField(w.endText)
    case None => Handled(w.(beginSlider := SliderValue(value, w.maximum)), None)
    case Some(e) =>
      var v := BelowEnd(value, e);
      ShowParses(v);
      Handled(w.(beginText := Show(v), beginSlider := SliderValue(v, w.maximum)), Some(v))
  }

  /** `end_slider_changed(value)` and `end_slider_clicked(value)`. */
  function EndFromSlider(w: SegmentWidget, value: int): (h: Handled)
    requires w.maximum >= 0
    ensures h.widget.beginText == w.beginText && h.widget.beginSlider == w.beginSlider
    ensures h.widget.maximum == w.maximum
    ensures h.preview.Some? <==> ReadField(w.beginText).Some?
    ensures h.preview.Some? ==>
      var b := ReadField(w.beginText).value;
      && h.preview.value > b
      && ReadField(h.widget.endText) == h.preview
      && (value > b ==> h.preview.value == value)
  {
    match ReadField(w.beginText)
    case None => Handled(w.(endSlider := SliderValue(value, w.maximum)), None)
    case Some(b) =>
      var v := AboveBegin(value, b);
      ShowParses(v);
      Handled(w.(endText := Show(v), endSlider := SliderValue(v, w.maximum)), Some(v))
  }

  /** `update_begin_input`, after the user finished editing the begin text.
      The text is rewritten only when the value was clamped; an unreadable
      field resets the begin text to "0". */
  function BeginFromText(w: SegmentWidget): (h: Handled)
    requires w.maximum >= 0
    ensures h.widget.endText == w.endText && h.widget.endSlider == w.endSlider
    ensures h.widget.maximum == w.maximum
    ensures h.preview.None? <==> ReadField(w.beginText).None? || ReadField(w.endText).None?
    ensures h.preview.None? ==> h.widget == w.(beginText := "0")
    ensures h.preview.Some? ==>
      var e := ReadField(w.endText).value;
      && (e >= 1 ==> 0 <= h.preview.value < e)
      && (e < 1 ==> h.preview.value <= 0)
      && ReadField(h.widget.beginText) == h.preview
      && h.widget.beginSlider == SliderValue(h.preview.value, w.maximum)
    ensures var v := ReadField(w.beginText); var e := ReadField(w.endText);
      v.Some? && e.Some? && 0 <= v.value < e.value ==>
        h.widget.beginText == w.beginText && h.preview == v
  {
    match (ReadField(w.beginText), ReadField(w.endText))
    case (Some(value), Some(e)) =>
      var v := BeginInputValue(value, e);
      ShowParses(v);
      var text := if value >= e || value < 0 then Show(v) else w.beginText;
      Handled(w.(beginText := text, beginSlider := SliderValue(v, w.maximum)), Some(v))
    case _ => Handled(w.(beginText := "0"), None)
  }

  /** `update_end_input`. An unreadable field resets the end text to the
      maximum. */
  function EndFromText(w: SegmentWidget): (h: Handled)
    requires w.maximum >= 0
    ensures h.widget.beginText == w.beginText && h.widget.beginSlider == w.beginSlider
    ensures h.widget.maximum == w.maximum
    ensures h.preview.None? <==> ReadField(w.endText).None? || ReadField(w.beginText).None?
    ensures h.preview.None? ==> h.widget == w.(endText := Show(w.maximum))
    ensures h.preview.Some? ==>
      var b := ReadField(w.beginText).value;
      && (b < w.maximum ==> b < h.preview.value <= w.maximum)
      && (b >= w.maximum ==> h.preview.value >= w.maximum)
      && ReadField(h.widget.endText) == h.preview
      && h.widget.endSlider == SliderValue(h.preview.value, w.maximum)
    ensures var v := ReadField(w.endText); var b := ReadField(w.beginText);
      v.Some? && b.Some? && b.value < v.value <= w.maximum ==>
        h.widget.endText == w.endText && h.preview == v
  {
    match (ReadField(w.endText), ReadField(w.beginText))
    case (Some(value), Some(b)) =>
      var v := EndInputValue(value, b, w.maximum);
      ShowParses(v);
      var text := if value <= b || value > w.maximum then Show(v) else w.endText;
      Handled(w.(endText := text, endSlider := SliderValue(v, w.maximum)), Some(v))
    case _ => Handled(w.(endText := Show(w.maximum)), None)
  }

  /** `confirm_selection`: the two integers handed to the player, or `None`
      when a field does not hold one. */
  function Selection(w: SegmentWidget): Option<(int, int)> {
    match (ReadField(w.beginText), ReadField(w.endText))
    case (Some(b), Some(e)) => Some((b, e))
    case _ => None
  }

  // ---------------------------------------------------------------------
  // The selection invariant

  /** Both fields hold integers with `0 <= begin < end <= maximum`. */
  predicate Valid(w: SegmentWidget) {
    && w.maximum >= 0
    && ReadField(w.beginText).Some? && ReadField(w.endText).Some?
    && 0 <= ReadField(w.beginText).value < ReadField(w.endText).value <= w.maximum
  }

  /** A video of at least one frame starts with a valid selection. */
  lemma SetRangeValid(total: int)
    requires total >= 1
    ensures Valid(SetRange(total))
    ensures Selection(SetRange(total)) == Some((0, total))
  {
  }

  /** Whatever the user types into the begin box, the handler restores the
      invariant, including when the text is not a number. */
  lemma BeginTextKeepsValid(w: SegmentWidget, typed: string)
    requires Valid(w)
    ensures Valid(BeginFromText(w.(beginText := typed)).widget)
  {
    var h := BeginFromText(w.(beginText := typed));
    if h.preview.None? {
      assert ReadField("0") == Some(0);
    }
  }

  /** Whatever the user types into the end box, the handler restores the
      invariant. */
  lemma EndTextKeepsValid(w: SegmentWidget, typed: string)
    requires Valid(w)
    ensures Valid(EndFromText(w.(endText := typed)).widget)
  {
    var h := EndFromText(w.(endText := typed));
    if h.preview.None? {
      ShowParses(w.maximum);
    }
  }

  /** Moving or clicking either slider to a position in its range keeps the
      invariant. */
  lemma SlidersKeepValid(w: SegmentWidget, value: int)
    requires Valid(w) && 0 <= value <= w.maximum
    ensures Valid(BeginFromSlider(w, value).widget)
    ensures Valid(EndFromSlider(w, value).widget)
  {
  }

  /** A valid widget confirms exactly the selection it shows. */
  lemma ValidSelection(w: SegmentWidget)
    requires Valid(w)
    ensures var s := Selection(w); s.Some? && 0 <= s.value.0 < s.value.1 <= w.maximum
  {
  }
}

=== FILE: wrappers.dfy ===
/** The optional-value type shared by every module of the model: Python's
    `None` versus a present value, and a parse that may raise `ValueError`. */
module Wrappers {

  datatype Option<+T> = None | Some(value: T)
}
